=== FILE: README.md ===
# Issue tracker client: verified model of its handlers

This project models the logic inside the Next.js issue-tracker client. Users file
issues and comment on them. An admin maintains three shared vocabularies: tags,
statuses and priorities. Almost everything in the client is rendering; the parts
modelled here are the handler and effect bodies, lifted into pure functions over
strings, string maps and sequences:

- **Request gateway** (`Api`). Resolves a request path against the backend base URL.
  Merges the default `Content-Type` and the bearer `Authorization` into the caller's
  headers.
- **Collection views** (`QueryState`, `Comments`, `Issues`). They cover:
  - reading the `skip`/`limit` window from the URL query;
  - building the fetch query;
  - filter edits and paging, as navigation targets;
  - the "admin or author" gate;
  - the local list reducers applied after the server answers.
- **Active-filter chips** (`ActiveFilters`). The chip list derived from the URL query
  and the loaded vocabularies, plus chip removal.
- **Vocabulary admin panels** (`Taxonomy` for statuses and priorities, which are the
  same code with the noun swapped; `TagsPanel` for tags, which adds a colour and a
  confirmation dialog).
- **Session store** (`Session`, `Storage`). Login, logout, restoring from the stored
  record, and the persistence rule that ties the in-memory user and token to the two
  storage keys.
- **Forms**:
  - the profile save and the comment preview (`Profile`);
  - the add-issue form (`AddIssue`);
  - the tag picker of the issue filters (`IssueFilters`).

How the browser is represented:

- A server reply is `Response<T> = Ok(body) | HttpErr(fields) | Failed(reason)`:
  - `Ok` is a 2xx reply with its parsed body;
  - `HttpErr` is a non-2xx reply with its JSON fields as a string map;
  - `Failed` is a rejected request, carrying the message the catch block shows.
- Each handler is a total function from (state, reply) to the next state. It also
  reports whether a request went out.
- `localStorage` is a `map<string, string>`.
- The URL query is a `map<string, string>`.
- Navigation is the target query (or path and query) the handler would push.
- JavaScript's `parseInt` and `Number` are modelled on strings (`JsNumbers`). They
  return `Option<int>`, with `None` standing for `NaN`.
- `String(n)` is `IntToString`.

Shared pieces:

- `Text`: whitespace, `trim`, `split` and `join`.
- `Lists`: replace, remove or toggle by id.
- `Responses`: the `data.error || fallback` idiom.
- `Domain`: the entities and the ownership test.

## Model

| member | source | states |
|---|---|---|
| Api.BackendUrl | app/utils/api.ts:3 | The base is the configured URL when it is set and non-empty, and "http://localhost:5000" otherwise. |
| Api.GetApiUrl | app/utils/api.ts:2-15 | An `http://` or `https://` path is returned unchanged. Any other path becomes the base and one "/", followed by the path without its first character when that is a "/", and the whole path otherwise. |
| Api.LeadingSlashOptional | app/utils/api.ts:11-14 | "/api/x" and "api/x" resolve to the same URL. |
| Api.ResolveUrl | app/utils/api.ts:19-26 | A `URL` object is used verbatim. A path string, or a `Request`'s url, goes through `getApiUrl`. |
| Api.WithDefaultContentType | app/utils/api.ts:35-39 | Adds `Content-Type: application/json` only when the caller supplied none. Keeps every caller header as given. |
| Api.MergeHeaders | app/utils/api.ts:34-43 | `Content-Type` is always present and the caller's value wins. `Authorization` is "Bearer " + token exactly when the token is truthy. No other header is added or changed. |
| Api.MergeHeadersIdempotent | app/utils/api.ts:34-43 | Merging headers a second time with the same token changes nothing. |
| Api.FetchWithAuth | app/utils/api.ts:17-47 | The URL is the resolved input. Every non-header field of `init` passes through. With storage, the headers are the caller's merged with the stored bearer token; the bearer header is the stored `access_token` when it is non-empty. |
| Api.ApiFetch | app/utils/api.ts:50-59 | Same URL rule and `Content-Type` default as `fetchWithAuth`. Never adds an `Authorization` the caller did not give. |
| Api.AnonymousFetchIsApiFetch | app/utils/api.ts:17-59 | Without a stored token, `fetchWithAuth` on a path builds exactly the request `apiFetch` builds. |
| Storage.BearerToken | app/utils/api.ts:29-32 | A token is read exactly when `access_token` is stored and non-empty, and it is that stored value. |
| Responses.ErrorField | components/custom/issue/IssueList.tsx:118-121 | `data.<key> \|\| fallback`: the field when present and non-empty, else the fallback. |
| Text.TrimStart | components/custom/comments/CommentSection.tsx:114 | The result is a suffix of the input. Only whitespace was dropped, and the result does not start with whitespace. |
| Text.TrimEnd | components/custom/comments/CommentSection.tsx:114 | The result is a prefix of the input. Only whitespace was dropped, and the result does not end with whitespace. |
| Text.TrimEmptyIffBlank | components/custom/comments/CommentSection.tsx:114 | `trim()` gives "" exactly when every character is whitespace. |
| Text.Trim | components/custom/comments/CommentSection.tsx:114 | `trim()` never returns something longer than its input, and what it returns neither starts nor ends with whitespace. |
| Text.Join | components/custom/issue/ActiveFilters.tsx:83 | `join(sep)`: with `Text.SplitJoin`, joining undoes a split, and `Text.JoinSnoc` fixes how each further part is added. |
| Text.JoinSnoc | components/custom/issue/ActiveFilters.tsx:83 | Joining one more part appends the separator and that part at the end. |
| Text.Split | components/custom/issue/ActiveFilters.tsx:76 | `split(",")` yields at least one piece, and no piece contains the separator. |
| Text.SplitJoin | components/custom/issue/ActiveFilters.tsx:76 | Joining the pieces of a split with the separator gives back the original string. |
| Text.NatToString | components/custom/comments/CommentSection.tsx:71-72 | `String(n)` for n >= 0 is a non-empty run of decimal digits with no leading zero. |
| JsNumbers.DigitRun | components/custom/comments/CommentSection.tsx:60-61 | The longest leading run of digits in a radix: all of it is digits, and the next character is not. |
| JsNumbers.LeadingInteger | components/custom/comments/CommentSection.tsx:60-61 | `parseInt` yields `NaN` exactly when the string has no leading digit in the radix. |
| JsNumbers.ParseInt | components/custom/comments/CommentSection.tsx:60-61 | `parseInt`: leading whitespace and one sign are skipped, a `0x`/`0X` prefix switches to radix 16, then the leading digit run is read. |
| JsNumbers.ParseIntIgnoresLeadingSpace | components/custom/comments/CommentSection.tsx:60-61 | A space in front of the string never changes what `parseInt` reads. |
| JsNumbers.ParseIntOfDigits | components/custom/comments/CommentSection.tsx:60-61 | `parseInt` of an optional sign followed by decimal digits reads all of the digits. |
| JsNumbers.ParseIntOfIntToString | components/custom/comments/CommentSection.tsx:60-72 | `parseInt(String(n))` is n for every integer n. |
| JsNumbers.NumberOfIntToString | components/custom/issue/ActiveFilters.tsx:50 | `Number(String(n))` is n for every integer n. |
| JsNumbers.NumberOf | components/custom/issue/ActiveFilters.tsx:50 | `Number`: a blank string reads as 0. Otherwise the trimmed string is read as a radix-prefixed or signed decimal integer. |
| QueryState.ReadInt | components/custom/comments/CommentSection.tsx:60-66 | The value is `parseInt` of the key's string when that is a number. Otherwise, or when the key is absent, it is the fallback. |
| QueryState.FetchQuery | components/custom/comments/CommentSection.tsx:69-73 | Every other key and value passes through. `skip` and `limit` are always present, written as `String` of the normalised window, and parse back to it. |
| QueryState.WriteWindow | components/custom/comments/CommentSection.tsx:69-73 | `skip` and `limit` are written as strings that `parseInt` reads back as the window. Every other key and value passes through. |
| QueryState.FetchOfWrittenWindow | components/custom/issue/IssueList.tsx:149-151 | A query that already carries a written window is its own fetch query. |
| QueryState.FetchQueryNormalises | components/custom/comments/CommentSection.tsx:60-73 | Reading the window back from the fetch query gives the window read from the URL. |
| QueryState.FetchQueryIdempotent | components/custom/comments/CommentSection.tsx:69-73 | Building the fetch query from a fetch query changes nothing. |
| QueryState.Overlay | components/custom/comments/CommentSection.tsx:192-195 | `{...query, ...newQuery}`: the new keys win and every other key is kept. |
| QueryState.SetFilter | components/custom/comments/CommentSection.tsx:239-248 | A non-empty value sets the key and an empty value deletes it. `skip` becomes "0". Every other key is unchanged. |
| QueryState.SetFilterResetsSkip | components/custom/comments/CommentSection.tsx:246 | After a filter edit the window starts at 0. |
| QueryState.WrittenWindowReadsBack | components/custom/issue/IssueList.tsx:149-151 | Writing `skip` and `limit` into the query and reading it back gives exactly that window. |
| QueryState.PagingKeepsFilters | components/custom/comments/CommentSection.tsx:192-195 | Paging changes only `skip` and preserves every filter key. |
| Comments.OnQueryChange | components/custom/comments/CommentSection.tsx:60-67 | `skip` defaults to 0 and `limit` to 5 when absent or not numeric, with no clamping. The comments and the count are kept. |
| Comments.OnFetched | components/custom/comments/CommentSection.tsx:76-82 | A fetched page replaces the old one wholesale. The status is not checked, so a non-2xx reply's error body takes the page's place. A rejected fetch keeps the page. |
| Comments.ServedPageWins | components/custom/comments/CommentSection.tsx:59-82 | Whatever window the URL asked for, a served page is what the section shows. |
| Comments.RejectedFetchKeepsUrlWindow | components/custom/comments/CommentSection.tsx:59-82 | After a rejected fetch the window is the URL's and the comments are the old ones. |
| Comments.CommentsQuery | components/custom/comments/CommentSection.tsx:69-73 | The fetch query has the URL's keys plus `skip` and `limit`. Both are written in decimal from the normalised window, and every other key keeps its value. |
| Comments.EditFilter | components/custom/comments/CommentSection.tsx:239-286 | Editing `author_name`, `start` or `end` sets or deletes that key, resets the window to 0, and keeps all other keys. |
| Comments.ToggleFilters | components/custom/comments/CommentSection.tsx:218 | The Filters button flips whether the filter inputs show and changes nothing else. |
| Comments.ClearFilters | components/custom/comments/CommentSection.tsx:293-296 | "Clear Filters" leads to a query with no key at all, which reads as the first page with the default limit, and hides the filter inputs. |
| Comments.EditAfterClearIsOnlyFilter | components/custom/comments/CommentSection.tsx:239-296 | A filter typed after clearing is the query's only filter, next to `skip=0`. An empty value leaves just `skip`. |
| Comments.PrevTarget | components/custom/comments/CommentSection.tsx:403 | Previous targets `max(0, skip - limit)` and changes no other key. |
| Comments.NextTarget | components/custom/comments/CommentSection.tsx:411 | Next targets `skip + limit` and changes no other key. |
| Comments.PagingStaysInRange | components/custom/comments/CommentSection.tsx:400-415 | An enabled Previous moves back but not below 0; a disabled one (`skip == 0`) stays at 0. An enabled Next (`skip + limit < total`) lands inside the total. |
| Comments.RangeLabel | components/custom/comments/CommentSection.tsx:394-397 | Shown exactly when the total is positive. Runs from `skip + 1` to `min(skip + limit, total)` of `total`. |
| Comments.PrevDisabled | components/custom/comments/CommentSection.tsx:407 | Previous is disabled exactly at `skip == 0`. |
| Comments.NextDisabled | components/custom/comments/CommentSection.tsx:414 | Next is disabled once `skip + limit` reaches the total. |
| Comments.AddComment | components/custom/comments/CommentSection.tsx:113-138 | Blank text sends nothing. Success appends the comment, raises the count by one, clears and closes the form, and reloads. A failure leaves the view as it was. Nothing else changes. |
| Comments.StartEdit | components/custom/comments/CommentSection.tsx:197-200 | The comment's id is being edited, its content in the field, and the page untouched. Nothing else changes. |
| Comments.SaveEdit | components/custom/comments/CommentSection.tsx:141-160 | No request without a truthy editing id, or with blank text. Otherwise the PUT always goes out. Success leaves edit mode with the field emptied and reloads, and nothing else changes. A failure keeps everything. |
| Comments.StartThenSaveReturns | components/custom/comments/CommentSection.tsx:141-160 | Editing a comment and saving it with an accepted reply sends the request and reloads, and returns a view that was not editing to exactly where it was. |
| Comments.RequestDelete | components/custom/comments/CommentSection.tsx:163-166 | Records the target and opens the dialog, without a request. Nothing else changes. |
| Comments.ConfirmDelete | components/custom/comments/CommentSection.tsx:168-189 | The dialog closes on every path. Without a target nothing else happens. Success drops every comment with the target's id, keeping the others in order, lowers the count by one and reloads. Nothing else in the view changes. A failure keeps the page. |
| Comments.DismissDialog | components/custom/comments/CommentSection.tsx:421-428 | Cancelling the dialog closes it and changes nothing else. |
| Comments.DeleteShrinksPageByOne | components/custom/comments/CommentSection.tsx:176-181 | When the id occurs once, the page and the count both shrink by exactly one. |
| Comments.AddThenDeleteRestores | components/custom/comments/CommentSection.tsx:113-189 | Adding a comment with a fresh id and then deleting it restores the page and the count. |
| Issues.OnQueryChange | components/custom/issue/IssueList.tsx:54-57 | The window is read as for comments, with `PAGE_SIZE = 5` as the default limit. |
| Issues.IssuesQuery | components/custom/issue/IssueList.tsx:58-62 | The fetch query has the URL's keys plus `skip` and `limit`. Both are written in decimal from the window normalised with `PAGE_SIZE`, and every other key keeps its value. |
| Issues.OnFetched | components/custom/issue/IssueList.tsx:63-71 | A reply replaces the issues, total, skip and limit with the server's. The status is not checked, so a non-2xx reply's error body takes the list's place. A rejected fetch changes nothing. Nothing else in the view changes. |
| Issues.ServedWindowWins | components/custom/issue/IssueList.tsx:53-71 | Whatever window the URL asked for, the served window is what the list shows. |
| Issues.RejectedFetchKeepsUrlWindow | components/custom/issue/IssueList.tsx:53-71 | After a rejected fetch the window is the URL's and the issues are the old ones. |
| Issues.StartEdit | components/custom/issue/IssueList.tsx:81-91 | The edit form is filled from the issue, and its id is being edited. Nothing else changes. |
| Issues.PayloadOf | components/custom/issue/IssueList.tsx:105-110 | The body carries the tag ids in the form's order. |
| Issues.Update | components/custom/issue/IssueList.tsx:93-128 | Outside edit mode nothing happens. Without a stored token the error is "You must log in before editing an issue." and nothing is sent. Success replaces only the edited issue, in place, and leaves edit mode. A failure keeps the list and shows `data.message`, "Failed to update issue", or the thrown message. Nothing else changes. |
| Issues.SaveKeepsOrder | components/custom/issue/IssueList.tsx:123 | Every other issue keeps its position and value after a save. |
| Issues.Delete | components/custom/issue/IssueList.tsx:130-141 | A declined prompt changes nothing. Once the request settles, whatever its status, every issue with the id leaves the list, the others stay in order, and nothing else changes. The total is never touched. |
| Issues.DeleteLeavesTotal | components/custom/issue/IssueList.tsx:136-138 | Deleting an id that occurs once shortens the list by one and leaves the total as it was. |
| Issues.Add | components/custom/issue/IssueList.tsx:143-146 | A new issue goes to the end of the list and the add form closes. Nothing else changes. |
| Issues.AddThenDeleteRestores | components/custom/issue/IssueList.tsx:130-146 | Adding an issue with a fresh id and then deleting it restores the list and the total. |
| Issues.PagingTarget | components/custom/issue/IssueList.tsx:149-151 | `updateQuery({skip, limit})` reads back as exactly that window and keeps every other key. |
| Issues.PrevTarget | components/custom/issue/IssueList.tsx:280 | Prev targets `max(0, skip - limit)` with `limit = PAGE_SIZE`. |
| Issues.NextTarget | components/custom/issue/IssueList.tsx:286 | Next targets `skip + limit` with `limit = PAGE_SIZE`. |
| Issues.PagingStaysInRange | components/custom/issue/IssueList.tsx:278-289 | An enabled Prev moves back but not below 0; a disabled one stays at 0. An enabled Next on a full page lands inside the total. |
| Issues.RangeLabel | components/custom/issue/IssueList.tsx:290 | Runs from `skip + 1` to `min(skip + shown, total)` of `total`. |
| Issues.PrevDisabled | components/custom/issue/IssueList.tsx:279 | Prev is disabled exactly at `skip == 0`. |
| Issues.NextDisabled | components/custom/issue/IssueList.tsx:285 | Next is disabled once `skip` plus the number of shown issues reaches the total. |
| Domain.IsOwnerOrAdmin | components/custom/issue/IssueList.tsx:264 | Edit and Delete show exactly for the "admin" role, or for a signed-in user whose id is the author's. The comment list uses the same gate (components/custom/comments/CommentSection.tsx lines 323-324). |
| ActiveFilters.FindTerm | components/custom/issue/ActiveFilters.tsx:50 | `find` returns nothing exactly when no term has the id. Otherwise it returns the first term with that id. |
| ActiveFilters.TermChip | components/custom/issue/ActiveFilters.tsx:49-72 | A status or priority chip appears exactly when the key is present and `Number` of its value is a loaded id. The chip shows that term's name. |
| ActiveFilters.IdsOf | components/custom/issue/ActiveFilters.tsx:76 | Every piece with a numeric id contributes it, and every id comes from some piece. |
| ActiveFilters.TagIds | components/custom/issue/ActiveFilters.tsx:76 | `filter(Boolean)` leaves no 0 among the tag ids. |
| ActiveFilters.SelectTags | components/custom/issue/ActiveFilters.tsx:77 | The selected tags are exactly the available tags whose id was asked for. |
| ActiveFilters.SelectTagsAppend | components/custom/issue/ActiveFilters.tsx:77 | Selection distributes over concatenation, so it keeps the available-tags order and every repeat. |
| ActiveFilters.SelectOneTag | components/custom/issue/ActiveFilters.tsx:77 | A single tag is kept exactly when its id was asked for. |
| ActiveFilters.TagNames | components/custom/issue/ActiveFilters.tsx:83 | The names, in available-tags order. |
| ActiveFilters.TagsChip | components/custom/issue/ActiveFilters.tsx:75-86 | The tags chip appears exactly when some id resolves. It shows the resolved names joined by ", ". |
| ActiveFilters.AuthorChip | components/custom/issue/ActiveFilters.tsx:89-96 | `author_id` always gives an "Author" chip that shows the raw value. |
| ActiveFilters.AppendChips | components/custom/issue/ActiveFilters.tsx:44-102 | Concatenating chip groups of increasing rank keeps the list faithful to the query and in display order. |
| ActiveFilters.AppendHas | components/custom/issue/ActiveFilters.tsx:44-102 | A concatenation holds a chip for a key exactly when one of its parts does. |
| ActiveFilters.FourHas | components/custom/issue/ActiveFilters.tsx:44-102 | Four chip groups joined hold a chip for a key exactly when one of the groups does. |
| ActiveFilters.Slot | components/custom/issue/ActiveFilters.tsx:44-102 | A single chip group for one key is faithful and in order. |
| ActiveFilters.SlotsOrdered | components/custom/issue/ActiveFilters.tsx:44-102 | The status, priority, tags and author groups, joined in that order, are faithful to the query and in display order. |
| ActiveFilters.SlotsHave | components/custom/issue/ActiveFilters.tsx:44-102 | In the joined groups each recognised key has a chip exactly when its own group produced one. |
| ActiveFilters.Arrange | components/custom/issue/ActiveFilters.tsx:44-102 | Status, priority, tags and author groups, pushed in that order, give at most four chips in display order. Each key has a chip exactly when its group produced one. |
| ActiveFilters.Chips | components/custom/issue/ActiveFilters.tsx:44-102 | At most four chips, ordered status, priority, tags, author. Each chip shows its key's value, and there is one per key exactly when it resolves. `skip`, `limit` and other keys give none. |
| ActiveFilters.RemoveFilter | components/custom/issue/ActiveFilters.tsx:104-113 | Deletes the chip's key and `skip`, keeps every other key including `limit`, and navigates to "/". |
| ActiveFilters.ClearAllFilters | components/custom/issue/ActiveFilters.tsx:115-117 | Navigates to "/" with no query. |
| ActiveFilters.ClearAllHidesBar | components/custom/issue/ActiveFilters.tsx:115-121 | After clearing all filters there is no chip, so the bar renders nothing. |
| ActiveFilters.TermChipOfValue | components/custom/issue/ActiveFilters.tsx:49-72 | A term chip depends only on its own key's value. |
| ActiveFilters.NoChipAfterRemoval | components/custom/issue/ActiveFilters.tsx:104-113 | After a filter is removed, no chip carries its key. |
| ActiveFilters.RemoveDropsOnlyThatChip | components/custom/issue/ActiveFilters.tsx:104-113 | Removing a filter drops exactly that chip, keeps every other chip unchanged, and adds none. |
| Lists.ReplaceById | components/custom/issue/IssueList.tsx:123 | Same length. Entries with the id become the new value, and the others stay in place. |
| Lists.RemoveById | components/custom/comments/CommentSection.tsx:179 | `filter(x => x.id !== id)`: no entry with the id remains, and every other entry is kept. |
| Lists.RemoveByIdAppend | components/custom/comments/CommentSection.tsx:179 | Removing by id distributes over concatenation. |
| Lists.RemoveAbsentId | components/custom/comments/CommentSection.tsx:179 | Removing an id nobody has changes nothing. |
| Lists.RemoveByIdLength | components/custom/comments/CommentSection.tsx:179 | Removal shortens the list by the number of entries with the id. |
| Lists.RemoveSoleOccurrence | components/custom/admin/TagsManagement.tsx:120 | Removing the id of an entry that occurs once gives the entries before and after it, in order. |
| Lists.Toggle | components/custom/issue/IssueFilters.tsx:18-22 | The id is selected afterwards exactly when it was not before. An unselected entry is appended at the end. Entries with other ids are neither lost nor invented. |
| Lists.ToggleTwiceRestores | components/custom/issue/IssueFilters.tsx:18-22 | Toggling an unselected entry twice restores the original sequence. |
| Taxonomy.MutationError | components/custom/admin/StatusesManagement.tsx:66-72 | A non-2xx reply shows the server's `error`, or "Failed to <verb> <noun>". A throw shows "Error <gerund> <noun>". |
| Taxonomy.Initial | components/custom/admin/StatusesManagement.tsx:19-24 | The panel starts empty, loading, without error or edit. |
| Taxonomy.Load | components/custom/admin/StatusesManagement.tsx:32-47 | Success replaces the list. A failure keeps it with "Failed to fetch <nouns>" or "Error fetching <nouns>". Loading ends either way. |
| Taxonomy.Create | components/custom/admin/StatusesManagement.tsx:49-73 | A blank name sets "Name is required" and sends nothing. Success appends the server's term, clears the field and the banner. A failure keeps list and field and shows the message. |
| Taxonomy.StartEditing | components/custom/admin/StatusesManagement.tsx:124-127 | Edits the term's id with its name in the field. Nothing else changes. |
| Taxonomy.CancelEditing | components/custom/admin/StatusesManagement.tsx:129-132 | No edit, and the field is emptied. Nothing else changes. |
| Taxonomy.Update | components/custom/admin/StatusesManagement.tsx:75-100 | A blank name sends nothing. Success replaces only the terms with the id, in place, and leaves edit mode. A failure keeps the list and the edit. Nothing else changes. |
| Taxonomy.Delete | components/custom/admin/StatusesManagement.tsx:102-122 | A declined prompt changes nothing and sends nothing. Success drops every term with the id, keeps the rest in order, clears the banner and changes nothing else. A failure keeps the list and shows the server error, "Failed to delete <noun>" or "Error deleting <noun>". |
| Taxonomy.CreateThenDeleteRestores | components/custom/admin/PrioritiesManagement.tsx:49-122 | Creating a term with a fresh id and then deleting it gives back the original list. |
| Taxonomy.UpdateKeepsIds | components/custom/admin/PrioritiesManagement.tsx:75-100 | An update whose reply keeps the id leaves every position's id unchanged. |
| Taxonomy.CancelUndoesStart | components/custom/admin/PrioritiesManagement.tsx:124-132 | Starting and cancelling an edit restores the panel. |
| TagsPanel.Initial | components/custom/admin/TagsManagement.tsx:21-28 | The add form starts with an empty name and colour "#3B82F6". No edit, no target, dialog closed. |
| TagsPanel.Load | components/custom/admin/TagsManagement.tsx:36-51 | Success replaces the list. A failure keeps it with "Failed to fetch tags" or "Error fetching tags". |
| TagsPanel.Create | components/custom/admin/TagsManagement.tsx:53-77 | A blank name or colour sets "Name and color are required" and sends nothing. Success appends the tag and resets the form to "" and "#3B82F6". A failure keeps the list. |
| TagsPanel.StartEditing | components/custom/admin/TagsManagement.tsx:131-134 | Edits the tag's id with its name and colour in the form. Nothing else changes. |
| TagsPanel.CancelEditing | components/custom/admin/TagsManagement.tsx:136-139 | No edit, and both fields are emptied. Nothing else changes. |
| TagsPanel.Update | components/custom/admin/TagsManagement.tsx:79-104 | Validation as for create. Success replaces only the tags with the id and leaves edit mode. A failure keeps the list. Nothing else changes. |
| TagsPanel.RequestDelete | components/custom/admin/TagsManagement.tsx:106-109 | Records the target and opens the dialog, without a request. Nothing else changes. |
| TagsPanel.ConfirmDelete | components/custom/admin/TagsManagement.tsx:111-129 | Without a target nothing is sent. Success drops every tag with the target's id, keeps the rest in order, clears the banner and changes nothing else. A failure keeps the list. The dialog closes either way. |
| TagsPanel.DismissDialog | components/custom/admin/TagsManagement.tsx:281-288 | Cancelling closes the dialog and changes nothing else. |
| TagsPanel.RequestThenConfirmRemovesTag | components/custom/admin/TagsManagement.tsx:106-129 | Asking to delete a tag and confirming removes exactly that tag, keeping the others in order. |
| TagsPanel.CreateThenDeleteRestores | components/custom/admin/TagsManagement.tsx:53-129 | Creating a tag with a fresh id and deleting it through the dialog gives back the original list. |
| Session.Login | app/context/AuthContext.tsx:60-64 | Sets the user, the token and `role = user.role` together. The session is authenticated exactly when the token is non-empty. |
| Session.Logout | app/context/AuthContext.tsx:66-72 | All three become null. Both storage keys are removed and every other key is kept. |
| Session.Persist | app/context/AuthContext.tsx:45-58 | With a user and a truthy token, "auth" holds `{user, token, role: user.role}` and "access_token" holds the token. Otherwise both keys are removed. Other keys are untouched. |
| Session.Persisted | app/context/AuthContext.tsx:45-57 | The persistence invariant: an authenticated session is mirrored in both keys, and any other state leaves neither key behind. |
| Session.FromRecord | app/context/AuthContext.tsx:33-36 | User and token are read independently, and a missing or empty one becomes null. The role is the stored role, else `user.role`, else null. |
| Session.Restore | app/context/AuthContext.tsx:29-42 | No stored record: nothing changes. An unparsable record is removed and the state stays null. Otherwise the state comes from the record. |
| Session.Mount | app/context/AuthContext.tsx:29-58 | After the restore and persist effects, storage satisfies the persistence rule for the restored state. |
| Session.UseAuth | app/context/AuthContext.tsx:81-85 | Outside the provider it fails with the provider message. Inside, it returns the context. |
| Session.LoginSignsRequests | app/context/AuthContext.tsx:45-64 | After a login with a non-empty token, requests carry that token. |
| Session.LogoutUnsignsRequests | app/context/AuthContext.tsx:66-72 | After a logout, requests carry no token. |
| Session.RestorePersisted | app/context/AuthContext.tsx:29-58 | Restoring what was persisted gives back the session, with the role reset to `user.role`. |
| Session.ReloadKeepsSession | app/context/AuthContext.tsx:29-58 | A page reload keeps an authenticated session whose role is the user's role. |
| Session.CorruptRecordDiscarded | app/context/AuthContext.tsx:37-40 | A corrupt record leaves the session anonymous, with both keys removed. |
| Session.UserWithoutTokenNotPersisted | app/context/AuthContext.tsx:33-56 | A restored user without a token stays in memory but is not written back, and both keys are removed. |
| Profile.PayloadOf | app/profile/page.tsx:103-109 | `name` is present exactly when it differs from the loaded profile's name. `password` is present exactly when it is non-empty. |
| Profile.Prepare | app/profile/page.tsx:90-114 | Signed out: nothing. A mismatched non-empty password sets "Passwords don't match". Otherwise the banner and the success flag are reset; an empty payload leaves edit mode; anything else is sent. |
| Profile.Settle | app/profile/page.tsx:121-130 | A non-2xx reply shows the server's `error` or "Failed to update profile". Success overwrites the matching profile fields and keeps the others, clears both password fields, and leaves edit mode with success shown. |
| Profile.SaveProfileAsWritten | app/profile/page.tsx:90-137 | The handler as written: an accepted save ends with success shown and an error set. |
| Profile.AcceptedSaveAlsoReportsError | app/profile/page.tsx:126-136 | An accepted password change reports success and an error at once. |
| Profile.SaveProfile | app/profile/page.tsx:90-130 | The handler without the failing call: the same request. An accepted save shows success with no error. |
| Profile.SuccessExcludesError | app/profile/page.tsx:121-130 | With the fix, a save started without a success banner never ends with both banners. |
| Profile.BothBannersOnlyFromStaleSuccess | app/profile/page.tsx:91-130 | With the fix, both banners show after a save only when the success banner was already up and the new attempt stopped at the password check. |
| Profile.StartEditing | app/profile/page.tsx:272-274 | "Edit Profile" only enters edit mode, so an earlier banner stays. |
| Profile.CancelEditing | app/profile/page.tsx:343-349 | "Cancel" leaves edit mode, resets the name to the stored one, empties both passwords and clears both banners. |
| Profile.StaleSuccessBesideMismatch | app/profile/page.tsx:91-96 | After an accepted save, "Edit Profile" and a mismatched confirmation show "Passwords don't match" beside the success banner, with or without the fix. |
| Profile.CancelClearsStaleSuccess | app/profile/page.tsx:343-349 | After "Cancel" and "Edit Profile", a save never ends with both banners. |
| Profile.FixChangesOnlyTheBanner | app/profile/page.tsx:90-137 | The two versions send the same request and differ only in the error banner, and only on success. |
| Profile.Preview | app/profile/page.tsx:255-258 | More than 100 characters become the first 100 plus "...". Shorter content is shown whole. |
| Profile.PreviewIsPrefix | app/profile/page.tsx:255-258 | A preview is a prefix of the content, possibly followed by "...". |
| AddIssue.TagName | components/custom/issue/AddIssueForm.tsx:40 | The name of the first available tag with the id, or "" when there is none. |
| AddIssue.ToggleTag | components/custom/issue/AddIssueForm.tsx:38-42 | A selected id is removed. Otherwise `{id, name}` is appended. No other field changes. |
| AddIssue.SelectedIds | components/custom/issue/AddIssueForm.tsx:77 | The selected tag ids, in selection order. |
| AddIssue.Submit | components/custom/issue/AddIssueForm.tsx:44-95 | Checks run in order: blank title, missing token, falsy status, falsy priority; the first failure sets its message and nothing is sent. The body carries the fields and the tag ids in order. Success hands the reply to `onAdd` and clears the form. A failure keeps the form and shows `data.error`, "Failed to add issue", or the thrown message. |
| AddIssue.ToggleTwiceRestoresForm | components/custom/issue/AddIssueForm.tsx:38-42 | Picking an unselected tag twice leaves the form as it was. |
| AddIssue.PickedTagIsSent | components/custom/issue/AddIssueForm.tsx:38-78 | A newly picked tag's id is sent last, after the ids picked before it. |
| AddIssue.FailureKeepsInput | components/custom/issue/AddIssueForm.tsx:80-94 | A rejected submission keeps every input field. |
| IssueFilters.Initial | components/custom/issue/IssueFilters.tsx:8-9 | Nothing is selected and the logic is "AND". |
| IssueFilters.ToggleTag | components/custom/issue/IssueFilters.tsx:18-22 | Removes every entry with the tag's id when present, else appends the tag. The logic is kept. |
| IssueFilters.SetLogic | components/custom/issue/IssueFilters.tsx:9 | Sets the logic and keeps the selection. |
| IssueFilters.Apply | components/custom/issue/IssueFilters.tsx:24-28 | Calls the parent once and changes neither the selection nor the logic. |
| IssueFilters.ToggleTwiceRestores | components/custom/issue/IssueFilters.tsx:18-22 | Toggling an unselected tag twice restores the picker. |
| IssueFilters.DeselectKeepsOrder | components/custom/issue/IssueFilters.tsx:20 | Deselecting a tag keeps the other selected tags in their relative order. |

## Left out

- Network I/O is not modelled. `fetch` and `response.json()` become the `Response` argument. The list fetches in `Comments.OnFetched` and `Issues.OnFetched` store the JSON without checking `response.ok`. The model keeps that as a `Broken` state holding the error body. What rendering then does with the missing fields is not modelled.
- `console` logging is not modelled.
- React rendering, hooks, effect scheduling and `Suspense` wrappers are not modelled. Effects are explicit function calls.
- `router.push` is not modelled. Navigation is the target query or `Location` a handler returns.
- The `URLSearchParams` serialisation is not modelled: percent-encoding (section 5 of the WHATWG URL Standard) and key order. The query is an abstract map.
- Header names are matched only in their canonical spelling, not case-insensitively.
- `localStorage` is a map, and the JSON codec of the "auth" record is a pair of function parameters. Its round trip is a hypothesis of the session lemmas.
- `Number` and `parseInt` are modelled on integers only. Floating point, exponents beyond integers, precision loss above 2^53 and `Infinity` all read as `None`, or as the exact integer.
- Profile.SuccessExcludesError: holds only for a save started without a success banner. "Edit Profile" does not clear an earlier success, so a mismatched confirmation then shows both banners even with the fix (`Profile.StaleSuccessBesideMismatch`). Whether that leftover banner is intended is not clear from the code, so it is recorded rather than corrected.
- Profile.CancelEditing: a stored profile without a `name` field resets the form's name to "" where the source would store `undefined`.
- JsNumbers.NumberOf: a non-integral numeric string (e.g. "1.5") reads as `None` instead of a fraction. No entity id can equal a fraction, so chip resolution is unaffected.
- ActiveFilters.TagIds: states only that no id is 0. `IdsOf` and `SelectTags` carry the content.
- The profile page's fetch effects (profile, issues, comments) are left out. They only load data for display.
- So are the reference-data fetches of the add-issue form, the issue list and the chip bar, for the same reason.
- Date parsing and `toLocaleString` formatting are not modelled.
- components/custom/issue/TagChip.tsx is not part of this model: it is a floating-point luminance computation for text colour.
- components/custom/admin/AdminManagement.tsx is not part of this model: its panel animation, focus and keyboard handling are UI chrome.
- components/ui/ConfirmDialog.tsx and app/header.tsx are presentation. Only the dialog's confirm-then-close order is kept, in `TagsPanel.ConfirmDelete` and `Comments.ConfirmDelete`.
- components/ui/ConfirmDialog.tsx exports `ConfirmDialog` only by name. components/custom/comments/CommentSection.tsx:11 and components/custom/admin/TagsManagement.tsx:8 import it as a default export, and components/ui/index.ts re-exports that missing default. The model assumes the dialog renders; how the module system resolves the missing default is outside it.
- Profile.Preview: counts Unicode scalar values (Dafny `char`), while JavaScript's `length` and `substring` count UTF-16 code units. For content outside the Basic Multilingual Plane, the source cuts at a different place, and may split a surrogate pair.
- LoginForm and RegisterForm only log, and the `components/ui` dummy-data components, lib/data.ts, lib/types.ts, barrel files and `*Wrapper.tsx` files hold no logic.
- next.config.ts is not modelled: it only configures rewrites.
- `updateUser` on the session is not modelled, because the auth context does not define it (see Findings).

Behaviour of the code that the model keeps as written:

- A created issue, comment or vocabulary term is appended locally. The comment section also reloads its page.
- A confirmed issue delete removes the issue once the request settles, whatever the HTTP status, including 404 and errors.
- A failed delete in the admin panels shows the server's `error` string, or the fixed fallback message.
- A session is persisted when it has a user and a truthy token. A restored user without a token stays in memory and is not persisted.

## Findings

| source | as written | input that shows it | evidently intended | confidence | as-written member | corrected member |
|---|---|---|---|---|---|---|
| app/profile/page.tsx:133 | After a successful save, `updateUser` is called, but the auth context (app/context/AuthContext.tsx:11-17, 75) provides no `updateUser`. The call throws, and the catch block sets `updateError` while `updateSuccess` is already true. | Any accepted save with a non-empty payload, e.g. a new password "pw" confirmed as "pw". | An accepted save shows success and no error. | high; not executed | Profile.SaveProfileAsWritten, Profile.AcceptedSaveAlsoReportsError | Profile.SaveProfile, Profile.SuccessExcludesError |

=== FILE: active_filters.dfy ===
/**
 * The active-filter chips above the issue list: derived from the URL query and the
 * loaded statuses, priorities and tags, in the fixed order status, priority, tags,
 * author. A status, priority or tag filter whose id resolves to nothing shows no chip.
 */
module ActiveFilters {
  import opened Wrappers
  import opened Text
  import opened JsNumbers
  import opened Domain
  import opened QueryState

  const StatusKey: string := "status_id"
  const PriorityKey: string := "priority_id"
  const TagsKey: string := "tags"
  const AuthorKey: string := "author_id"

  datatype Chip = Chip(key: string, caption: string, value: string, display: string)

  /** Position of a chip key in the display order; keys that never make a chip rank 4. */
  function Rank(key: string): nat {
    if key == StatusKey then 0
    else if key == PriorityKey then 1
    else if key == TagsKey then 2
    else if key == AuthorKey then 3
    else 4
  }

  /** `if (query.key)`: present and non-empty. */
  predicate Present(q: Query, key: string) {
    key in q && q[key] != ""
  }

  /** `terms.find(t => t.id === id)`: the first term carrying the id. */
  function FindTerm(terms: seq<Term>, id: int): (r: Option<Term>)
    ensures r.None? <==> forall i :: 0 <= i < |terms| ==> terms[i].id != id
    ensures r.Some? ==> r.value.id == id && exists i :: (0 <= i < |terms| && terms[i] == r.value
                                                        && forall j :: 0 <= j < i ==> terms[j].id != id)
    decreases |terms|
  {
    if |terms| == 0 then None
    else if terms[0].id == id then Some(terms[0])
    else
      var r := FindTerm(terms[1..], id);
      if r.Some? then
        var i :| (0 <= i < |terms[1..]| && terms[1..][i] == r.value
                  && forall j :: 0 <= j < i ==> terms[1..][j].id != id);
        assert terms[i + 1] == r.value;
        r
      else r
  }

  /** The filter under `key` names a loaded term: `Number(value)` equals some term's id. */
  predicate Resolves(q: Query, key: string, terms: seq<Term>) {
    Present(q, key) && NumberOf(q[key]).Some?
    && exists i :: 0 <= i < |terms| && terms[i].id == NumberOf(q[key]).value
  }

  /** The chip of a status or priority filter: shown only when its id resolves, labelled with the term's name. */
  function TermChip(q: Query, key: string, caption: string, terms: seq<Term>): (r: seq<Chip>)
    ensures |r| <= 1
    ensures |r| == 1 <==> Resolves(q, key, terms)
    ensures |r| == 1 ==>
      && r[0].key == key && r[0].caption == caption && r[0].value == q[key]
      && FindTerm(terms, NumberOf(q[key]).value) == Some(Term(NumberOf(q[key]).value, r[0].display))
  {
    if !Present(q, key) then []
    else
      match NumberOf(q[key])
      case None => []
      case Some(id) =>
        match FindTerm(terms, id)
        case None => []
        case Some(t) => [Chip(key, caption, q[key], t.name)]
  }

  /** The id one comma-separated piece of the `tags` value contributes: its value, unless that is 0. */
  function PieceId(piece: string): Option<int> {
    match NumberOf(piece)
    case Some(n) => if n != 0 then Some(n) else None
    case None => None
  }

  /**
   * `pieces.map(Number).filter(Boolean)` with `idOf` the per-piece conversion: the ids
   * of the pieces that have one, in order.
   */
  function IdsOf(pieces: seq<string>, idOf: string -> Option<int>): (ids: seq<int>)
    ensures forall i :: 0 <= i < |pieces| && idOf(pieces[i]).Some? ==> idOf(pieces[i]).value in ids
    ensures forall k :: 0 <= k < |ids| ==> exists i :: 0 <= i < |pieces| && idOf(pieces[i]) == Some(ids[k])
    decreases |pieces|
  {
    if |pieces| == 0 then []
    else
      var rest := IdsOf(pieces[1..], idOf);
      assert forall i :: 1 <= i < |pieces| ==> pieces[i] == pieces[1..][i - 1];
      assert forall k :: 0 <= k < |rest| ==> exists i :: 0 <= i < |pieces| && idOf(pieces[i]) == Some(rest[k]) by {
        forall k | 0 <= k < |rest| ensures exists i :: 0 <= i < |pieces| && idOf(pieces[i]) == Some(rest[k]) {
          var i :| 0 <= i < |pieces[1..]| && idOf(pieces[1..][i]) == Some(rest[k]);
          assert idOf(pieces[i + 1]) == Some(rest[k]);
        }
      }
      match idOf(pieces[0])
      case Some(n) => [n] + rest
      case None => rest
  }

  /** The ids named by a `tags` value: no id is 0, and each comes from one of its pieces. */
  function TagIds(value: string): (ids: seq<int>)
    ensures forall n :: n in ids ==> n != 0
  {
    IdsOf(Split(value, ','), PieceId)
  }

  /** `availableTags.filter(tag => ids.includes(tag.id))`: the selected tags in available-tags order. */
  function SelectTags(tags: seq<Tag>, ids: seq<int>): (r: seq<Tag>)
    ensures forall i :: 0 <= i < |r| ==> r[i] in tags && r[i].id in ids
    ensures forall i :: 0 <= i < |tags| && tags[i].id in ids ==> tags[i] in r
    ensures |r| <= |tags|
    decreases |tags|
  {
    if |tags| == 0 then []
    else if tags[0].id in ids then [tags[0]] + SelectTags(tags[1..], ids)
    else SelectTags(tags[1..], ids)
  }

  /**
   * Filtering distributes over concatenation, so the selection keeps the available-tags
   * order and every repeated occurrence; with `SelectOneTag` this pins the result down.
   */
  lemma {:induction false} SelectTagsAppend(a: seq<Tag>, b: seq<Tag>, ids: seq<int>)
    ensures SelectTags(a + b, ids) == SelectTags(a, ids) + SelectTags(b, ids)
    decreases |a|
  {
    if |a| == 0 {
      assert a + b == b;
    } else {
      assert (a + b)[0] == a[0];
      assert (a + b)[1..] == a[1..] + b;
      SelectTagsAppend(a[1..], b, ids);
    }
  }

  /** One tag is kept exactly when its id is selected. */
  lemma SelectOneTag(t: Tag, ids: seq<int>)
    ensures SelectTags([t], ids) == (if t.id in ids then [t] else [])
  {
    assert [t][1..] == [];
  }

  function TagNames(tags: seq<Tag>): (names: seq<string>)
    ensures |names| == |tags|
    ensures forall i :: 0 <= i < |tags| ==> names[i] == tags[i].name
  {
    seq(|tags|, i requires 0 <= i < |tags| => tags[i].name)
  }

  /** The tag filter resolves when some loaded tag carries one of its ids. */
  predicate TagsResolve(q: Query, tags: seq<Tag>) {
    Present(q, TagsKey) && exists i :: 0 <= i < |tags| && tags[i].id in TagIds(q[TagsKey])
  }

  /** The tags chip: the resolved names in available-tags order, joined by ", ". */
  function TagsChip(q: Query, tags: seq<Tag>): (r: seq<Chip>)
    ensures |r| <= 1
    ensures |r| == 1 <==> TagsResolve(q, tags)
    ensures |r| == 1 ==>
      && r[0].key == TagsKey && r[0].caption == "Tags" && r[0].value == q[TagsKey]
      && r[0].display == Join(TagNames(SelectTags(tags, TagIds(q[TagsKey]))), ", ")
  {
    if !Present(q, TagsKey) then []
    else
      var selected := SelectTags(tags, TagIds(q[TagsKey]));
      if |selected| > 0 then [Chip(TagsKey, "Tags", q[TagsKey], Join(TagNames(selected), ", "))]
      else []
  }

  /** The author chip: any non-empty `author_id`, shown as the raw id. */
  function AuthorChip(q: Query): (r: seq<Chip>)
    ensures |r| <= 1
    ensures |r| == 1 <==> Present(q, AuthorKey)
    ensures |r| == 1 ==> r[0] == Chip(AuthorKey, "Author", q[AuthorKey], q[AuthorKey])
  {
    if Present(q, AuthorKey) then [Chip(AuthorKey, "Author", q[AuthorKey], q[AuthorKey])] else []
  }

  /** Whether some chip in the list carries the key. */
  predicate HasChip(chips: seq<Chip>, key: string) {
    exists i :: 0 <= i < |chips| && chips[i].key == key
  }

  /** Every chip names a recognised key of the query and carries that key's raw value. */
  predicate Faithful(chips: seq<Chip>, q: Query) {
    forall i :: 0 <= i < |chips| ==> Rank(chips[i].key) < 4 && chips[i].key in q && chips[i].value == q[chips[i].key]
  }

  /** The chips appear in display order, so no key repeats. */
  predicate InDisplayOrder(chips: seq<Chip>) {
    forall i, j :: 0 <= i < j < |chips| ==> Rank(chips[i].key) < Rank(chips[j].key)
  }

  /** All chips rank in `[lo, hi)`. */
  predicate RankedIn(chips: seq<Chip>, lo: nat, hi: nat) {
    forall i :: 0 <= i < |chips| ==> lo <= Rank(chips[i].key) < hi
  }

  /** Appending a later-ranked run of chips keeps the list faithful and ordered. */
  lemma {:induction false} AppendChips(x: seq<Chip>, y: seq<Chip>, q: Query, lo: nat, mid: nat, hi: nat)
    requires Faithful(x, q) && Faithful(y, q) && InDisplayOrder(x) && InDisplayOrder(y)
    requires lo <= mid <= hi && RankedIn(x, lo, mid) && RankedIn(y, mid, hi)
    ensures Faithful(x + y, q) && InDisplayOrder(x + y) && RankedIn(x + y, lo, hi)
  {
    var r := x + y;
    forall i | 0 <= i < |r|
      ensures Rank(r[i].key) < 4 && r[i].key in q && r[i].value == q[r[i].key] && lo <= Rank(r[i].key) < hi
    {
      if i < |x| {
        assert r[i] == x[i];
      } else {
        assert r[i] == y[i - |x|];
      }
    }
    forall i, j | 0 <= i < j < |r| ensures Rank(r[i].key) < Rank(r[j].key) {
      if j < |x| {
        assert r[i] == x[i] && r[j] == x[j];
      } else if i < |x| {
        assert r[i] == x[i] && r[j] == y[j - |x|];
      } else {
        assert r[i] == y[i - |x|] && r[j] == y[j - |x|];
      }
    }
  }

  /** A key has a chip in a concatenation exactly when it has one in either part. */
  lemma AppendHas(x: seq<Chip>, y: seq<Chip>, key: string)
    ensures HasChip(x + y, key) <==> HasChip(x, key) || HasChip(y, key)
  {
    var r := x + y;
    if HasChip(r, key) {
      var i :| 0 <= i < |r| && r[i].key == key;
      if i >= |x| {
        assert y[i - |x|] == r[i];
      }
    }
    if HasChip(x, key) {
      var i :| 0 <= i < |x| && x[i].key == key;
      assert r[i] == x[i];
    }
    if HasChip(y, key) {
      var i :| 0 <= i < |y| && y[i].key == key;
      assert r[|x| + i] == y[i];
    }
  }

  /** Which keys four single-slot components put in their concatenation. */
  lemma FourHas(s: seq<Chip>, p: seq<Chip>, t: seq<Chip>, a: seq<Chip>, key: string)
    requires |s| <= 1 && |p| <= 1 && |t| <= 1 && |a| <= 1
    ensures HasChip(s + p + t + a, key) <==>
      || (|s| == 1 && s[0].key == key)
      || (|p| == 1 && p[0].key == key)
      || (|t| == 1 && t[0].key == key)
      || (|a| == 1 && a[0].key == key)
  {
    AppendHas(s, p, key);
    AppendHas(s + p, t, key);
    AppendHas(s + p + t, a, key);
  }

  /** A single-slot component is faithful, ordered and ranked by its key. */
  lemma Slot(x: seq<Chip>, q: Query, key: string)
    requires |x| <= 1 && Rank(key) < 4
    requires |x| == 1 ==> x[0].key == key && key in q && x[0].value == q[key]
    ensures Faithful(x, q) && InDisplayOrder(x) && RankedIn(x, Rank(key), Rank(key) + 1)
  {
  }

  /** The component slot of one recognised key: at most one chip, for that key, with its raw value. */
  predicate SlotFor(x: seq<Chip>, q: Query, key: string) {
    |x| <= 1 && (|x| == 1 ==> x[0].key == key && key in q && x[0].value == q[key])
  }

  /** Appending the slot of a later-ranked key keeps the list faithful and ordered. */
  lemma AppendSlot(x: seq<Chip>, y: seq<Chip>, q: Query, key: string)
    requires Faithful(x, q) && InDisplayOrder(x) && RankedIn(x, 0, Rank(key))
    requires Rank(key) < 4 && SlotFor(y, q, key)
    ensures Faithful(x + y, q) && InDisplayOrder(x + y) && RankedIn(x + y, 0, Rank(key) + 1)
  {
    Slot(y, q, key);
    AppendChips(x, y, q, 0, Rank(key), Rank(key) + 1);
  }

  /** Four slots laid end to end are faithful and in display order. */
  lemma SlotsOrdered(s: seq<Chip>, p: seq<Chip>, t: seq<Chip>, a: seq<Chip>, q: Query)
    requires SlotFor(s, q, StatusKey) && SlotFor(p, q, PriorityKey) && SlotFor(t, q, TagsKey) && SlotFor(a, q, AuthorKey)
    ensures Faithful(s + p + t + a, q) && InDisplayOrder(s + p + t + a)
  {
    Slot(s, q, StatusKey);
    AppendSlot(s, p, q, PriorityKey);
    AppendSlot(s + p, t, q, TagsKey);
    AppendSlot(s + p + t, a, q, AuthorKey);
  }

  /** In four slots laid end to end, each recognised key has a chip exactly when its own slot is filled. */
  lemma SlotsHave(s: seq<Chip>, p: seq<Chip>, t: seq<Chip>, a: seq<Chip>, q: Query)
    requires SlotFor(s, q, StatusKey) && SlotFor(p, q, PriorityKey) && SlotFor(t, q, TagsKey) && SlotFor(a, q, AuthorKey)
    ensures HasChip(s + p + t + a, StatusKey) <==> |s| == 1
    ensures HasChip(s + p + t + a, PriorityKey) <==> |p| == 1
    ensures HasChip(s + p + t + a, TagsKey) <==> |t| == 1
    ensures HasChip(s + p + t + a, AuthorKey) <==> |a| == 1
  {
    FourHas(s, p, t, a, StatusKey);
    FourHas(s, p, t, a, PriorityKey);
    FourHas(s, p, t, a, TagsKey);
    FourHas(s, p, t, a, AuthorKey);
  }

  /** The four slots laid out in display order. */
  function Arrange(s: seq<Chip>, p: seq<Chip>, t: seq<Chip>, a: seq<Chip>, q: Query): (r: seq<Chip>)
    requires SlotFor(s, q, StatusKey) && SlotFor(p, q, PriorityKey) && SlotFor(t, q, TagsKey) && SlotFor(a, q, AuthorKey)
    ensures |r| <= 4
    ensures Faithful(r, q) && InDisplayOrder(r)
    ensures HasChip(r, StatusKey) <==> |s| == 1
    ensures HasChip(r, PriorityKey) <==> |p| == 1
    ensures HasChip(r, TagsKey) <==> |t| == 1
    ensures HasChip(r, AuthorKey) <==> |a| == 1
  {
    SlotsOrdered(s, p, t, a, q);
    SlotsHave(s, p, t, a, q);
    s + p + t + a
  }

  /**
   * The chip-derivation effect. At most one chip per recognised key, in display order;
   * `skip`, `limit` and every other key never make a chip; each chip carries its raw value.
   */
  function Chips(q: Query, statuses: seq<Term>, priorities: seq<Term>, tags: seq<Tag>): (r: seq<Chip>)
    ensures |r| <= 4
    ensures Faithful(r, q) && InDisplayOrder(r)
    ensures HasChip(r, StatusKey) <==> Resolves(q, StatusKey, statuses)
    ensures HasChip(r, PriorityKey) <==> Resolves(q, PriorityKey, priorities)
    ensures HasChip(r, TagsKey) <==> TagsResolve(q, tags)
    ensures HasChip(r, AuthorKey) <==> Present(q, AuthorKey)
  {
    Arrange(TermChip(q, StatusKey, "Status", statuses), TermChip(q, PriorityKey, "Priority", priorities),
            TagsChip(q, tags), AuthorChip(q), q)
  }

  /** The component renders nothing when there is no chip. */
  predicate Visible(chips: seq<Chip>) {
    |chips| > 0
  }

  /**
   * `removeFilter(key)`: the key and `skip` are deleted, everything else (including
   * `limit`) is kept; the target is "/" with that query, or bare "/" when it is empty.
   */
  function RemoveFilter(q: Query, key: string): (r: Location)
    ensures r.path == "/"
    ensures key !in r.query && SkipKey !in r.query
    ensures forall k :: k != key && k != SkipKey ==> (k in r.query <==> k in q)
    ensures forall k :: k in r.query ==> r.query[k] == q[k]
  {
    Location("/", q - {key, SkipKey})
  }

  /** `clearAllFilters`: "/" with no query. */
  function ClearAllFilters(): (r: Location)
    ensures r.path == "/" && |r.query| == 0
  {
    Location("/", map[])
  }

  /** Clearing all filters leaves no chip, so the bar disappears. */
  lemma ClearAllHidesBar(statuses: seq<Term>, priorities: seq<Term>, tags: seq<Tag>)
    ensures !Visible(Chips(ClearAllFilters().query, statuses, priorities, tags))
  {
  }

  /** Two queries that agree on a key's value derive the same term chip for it. */
  lemma TermChipOfValue(q: Query, q': Query, key: string, caption: string, terms: seq<Term>)
    requires Present(q, key) == Present(q', key)
    requires Present(q, key) ==> q[key] == q'[key]
    ensures TermChip(q, key, caption, terms) == TermChip(q', key, caption, terms)
  {
  }

  /** After a removal each slot is either unchanged or emptied, and it is emptied only when it held the removed key. */
  predicate SlotKeptOrDropped(before: seq<Chip>, after: seq<Chip>, key: string) {
    after == before || (after == [] && forall c :: c in before ==> c.key == key)
  }

  /** If every slot is kept or dropped, the arrangement keeps exactly the chips of other keys. */
  lemma KeptOrDroppedSlots(r: seq<Chip>, r': seq<Chip>, s: seq<Chip>, p: seq<Chip>, t: seq<Chip>, a: seq<Chip>,
                           s': seq<Chip>, p': seq<Chip>, t': seq<Chip>, a': seq<Chip>, key: string)
    requires r == s + p + t + a && r' == s' + p' + t' + a'
    requires SlotKeptOrDropped(s, s', key) && SlotKeptOrDropped(p, p', key)
    requires SlotKeptOrDropped(t, t', key) && SlotKeptOrDropped(a, a', key)
    ensures forall c :: c in r && c.key != key ==> c in r'
    ensures forall c :: c in r' ==> c in r
  {
  }

  /** A term slot after its key's filter is removed: emptied for that key, unchanged otherwise. */
  lemma TermSlotAfterRemoval(q: Query, key: string, slot: string, caption: string, terms: seq<Term>)
    requires slot != SkipKey
    ensures SlotKeptOrDropped(TermChip(q, slot, caption, terms),
                              TermChip(RemoveFilter(q, key).query, slot, caption, terms), key)
  {
    var q' := RemoveFilter(q, key).query;
    if key != slot {
      TermChipOfValue(q, q', slot, caption, terms);
    }
  }

  /** The tags and author slots after a filter is removed: emptied for their own key, unchanged otherwise. */
  lemma TagsAndAuthorSlotsAfterRemoval(q: Query, key: string, tags: seq<Tag>)
    ensures SlotKeptOrDropped(TagsChip(q, tags), TagsChip(RemoveFilter(q, key).query, tags), key)
    ensures SlotKeptOrDropped(AuthorChip(q), AuthorChip(RemoveFilter(q, key).query), key)
  {
    var q' := RemoveFilter(q, key).query;
    if key != TagsKey {
      assert Present(q', TagsKey) == Present(q, TagsKey) && (Present(q, TagsKey) ==> q'[TagsKey] == q[TagsKey]);
    }
    if key != AuthorKey {
      assert Present(q', AuthorKey) == Present(q, AuthorKey) && (Present(q, AuthorKey) ==> q'[AuthorKey] == q[AuthorKey]);
    }
  }

  /** Once a filter is removed, no chip carries its key. */
  lemma NoChipAfterRemoval(q: Query, key: string, statuses: seq<Term>, priorities: seq<Term>, tags: seq<Tag>)
    ensures !HasChip(Chips(RemoveFilter(q, key).query, statuses, priorities, tags), key)
  {
  }

  /**
   * Removing a chip's filter drops exactly that chip: no chip with the key remains,
   * and every other chip is still derived, unchanged.
   */
  lemma RemoveDropsOnlyThatChip(q: Query, key: string, statuses: seq<Term>, priorities: seq<Term>, tags: seq<Tag>)
    requires key != SkipKey
    ensures var q' := RemoveFilter(q, key).query;
      && !HasChip(Chips(q', statuses, priorities, tags), key)
      && (forall c :: c in Chips(q, statuses, priorities, tags) && c.key != key ==> c in Chips(q', statuses, priorities, tags))
      && (forall c :: c in Chips(q', statuses, priorities, tags) ==> c in Chips(q, statuses, priorities, tags))
  {
    var q' := RemoveFilter(q, key).query;
    NoChipAfterRemoval(q, key, statuses, priorities, tags);
    TermSlotAfterRemoval(q, key, StatusKey, "Status", statuses);
    TermSlotAfterRemoval(q, key, PriorityKey, "Priority", priorities);
    TagsAndAuthorSlotsAfterRemoval(q, key, tags);
    KeptOrDroppedSlots(Chips(q, statuses, priorities, tags), Chips(q', statuses, priorities, tags),
                       TermChip(q, StatusKey, "Status", statuses), TermChip(q, PriorityKey, "Priority", priorities),
                       TagsChip(q, tags), AuthorChip(q),
                       TermChip(q', StatusKey, "Status", statuses), TermChip(q', PriorityKey, "Priority", priorities),
                       TagsChip(q', tags), AuthorChip(q'), key);
  }
}

=== FILE: add_issue.dfy ===
/**
 * The form that creates an issue: its tag picker and its submit handler, which checks
 * the fields in a fixed order, builds the request body and resets on success.
 */
module AddIssue {
  import opened Wrappers
  import opened Text
  import opened Domain
  import opened Lists
  import opened Storage
  import opened Responses

  const TitleRequired: string := "Title is required."
  const LoginRequired: string := "You must log in before adding an issue."
  const StatusRequired: string := "Status is required."
  const PriorityRequired: string := "Priority is required."
  const AddFailed: string := "Failed to add issue"

  datatype Form = Form(
    title: string,
    description: string,
    statusId: Option<int>,
    priorityId: Option<int>,
    tags: seq<TagRef>,
    error: Option<string>)

  /** The request body: `{title, description, status_id, priority_id, tags}`. */
  datatype NewIssue = NewIssue(title: string, description: string, statusId: int, priorityId: int, tagIds: seq<int>)

  /** A handler's result: the next form, the body sent if any, and the issue passed to `onAdd` if any. */
  datatype Outcome = Outcome(form: Form, sent: Option<NewIssue>, added: Option<Issue>)

  /** An id JavaScript treats as false: none chosen, or 0. */
  predicate Falsy(id: Option<int>) {
    id.None? || id.value == 0
  }

  /** The form after a successful submit: everything empty, no error. */
  const Cleared: Form := Form("", "", None, None, [], None)

  /** `availableTags.find(t => t.id === id)?.name || ""`. */
  function TagName(available: seq<Tag>, id: int): (name: string)
    ensures (forall i :: 0 <= i < |available| ==> available[i].id != id) ==> name == ""
    ensures name != "" ==> exists i :: 0 <= i < |available| && available[i].id == id && available[i].name == name
    ensures forall i :: (0 <= i < |available| && available[i].id == id
                         && (forall j :: 0 <= j < i ==> available[j].id != id)) ==> name == available[i].name
    decreases |available|
  {
    if |available| == 0 then ""
    else if available[0].id == id then available[0].name
    else
      var name := TagName(available[1..], id);
      assert forall i :: 1 <= i < |available| ==> available[i] == available[1..][i - 1];
      if name != "" then
        var i :| 0 <= i < |available[1..]| && available[1..][i].id == id && available[1..][i].name == name;
        assert available[i + 1] == available[1..][i];
        name
      else name
  }

  /**
   * `toggleTag(tagId)`: a selected id is deselected; otherwise `{id, name}` is appended,
   * the name looked up among the available tags.
   */
  function ToggleTag(f: Form, id: int, available: seq<Tag>): (r: Form)
    ensures HasId(r.tags, TagRefId, id) <==> !HasId(f.tags, TagRefId, id)
    ensures forall i :: 0 <= i < |f.tags| && f.tags[i].id != id ==> f.tags[i] in r.tags
    ensures !HasId(f.tags, TagRefId, id) ==> r.tags == f.tags + [TagRef(id, TagName(available, id))]
    ensures r.(tags := f.tags) == f
  {
    f.(tags := Toggle(f.tags, TagRefId, TagRef(id, TagName(available, id))))
  }

  /** `tags.map(t => t.id)`: the selected ids in selection order. */
  function SelectedIds(tags: seq<TagRef>): (ids: seq<int>)
    ensures |ids| == |tags|
    ensures forall i :: 0 <= i < |tags| ==> ids[i] == tags[i].id
  {
    seq(|tags|, i requires 0 <= i < |tags| => tags[i].id)
  }

  /**
   * `handleSubmit`. The error is cleared first; then a blank title, a missing stored
   * token, a falsy status and a falsy priority are checked in that order, and the first
   * that fails sets its message and stops. Otherwise the body is sent. A non-2xx reply
   * shows the server's `error` or "Failed to add issue", a throw shows its message, and
   * both keep the form; success hands the reply to `onAdd` and clears the form.
   */
  function Submit(f: Form, st: Store, resp: Response<Issue>): (r: Outcome)
    ensures Blank(f.title) ==> r == Outcome(f.(error := Some(TitleRequired)), None, None)
    ensures !Blank(f.title) && BearerToken(st).None? ==> r == Outcome(f.(error := Some(LoginRequired)), None, None)
    ensures !Blank(f.title) && BearerToken(st).Some? && Falsy(f.statusId) ==>
      r == Outcome(f.(error := Some(StatusRequired)), None, None)
    ensures !Blank(f.title) && BearerToken(st).Some? && !Falsy(f.statusId) && Falsy(f.priorityId) ==>
      r == Outcome(f.(error := Some(PriorityRequired)), None, None)
    ensures r.sent.Some? <==> !Blank(f.title) && BearerToken(st).Some? && !Falsy(f.statusId) && !Falsy(f.priorityId)
    ensures r.sent.Some? ==>
      && r.sent.value.title == f.title && r.sent.value.description == f.description
      && Some(r.sent.value.statusId) == f.statusId && Some(r.sent.value.priorityId) == f.priorityId
      && |r.sent.value.tagIds| == |f.tags|
      && (forall i :: 0 <= i < |f.tags| ==> r.sent.value.tagIds[i] == f.tags[i].id)
    ensures r.sent.Some? && resp.Ok? ==> r.form == Cleared && r.added == Some(resp.body)
    ensures r.sent.Some? && resp.HttpErr? ==>
      r.form == f.(error := Some(ErrorField(resp.fields, "error", AddFailed))) && r.added.None?
    ensures r.sent.Some? && resp.Failed? ==> r.form == f.(error := Some(resp.reason)) && r.added.None?
    ensures r.added.Some? ==> r.sent.Some? && resp.Ok?
  {
    TrimEmptyIffBlank(f.title);
    var f := f.(error := None);
    if Trim(f.title) == "" then Outcome(f.(error := Some(TitleRequired)), None, None)
    else if BearerToken(st).None? then Outcome(f.(error := Some(LoginRequired)), None, None)
    else if Falsy(f.statusId) then Outcome(f.(error := Some(StatusRequired)), None, None)
    else if Falsy(f.priorityId) then Outcome(f.(error := Some(PriorityRequired)), None, None)
    else
      var body := NewIssue(f.title, f.description, f.statusId.value, f.priorityId.value, SelectedIds(f.tags));
      match resp
      case Ok(issue) => Outcome(Cleared, Some(body), Some(issue))
      case HttpErr(fields) => Outcome(f.(error := Some(ErrorField(fields, "error", AddFailed))), Some(body), None)
      case Failed(reason) => Outcome(f.(error := Some(reason)), Some(body), None)
  }

  /** Picking a tag that was not selected and picking it again leaves the selection as it was. */
  lemma ToggleTwiceRestoresForm(f: Form, id: int, available: seq<Tag>)
    requires !HasId(f.tags, TagRefId, id)
    ensures ToggleTag(ToggleTag(f, id, available), id, available) == f
  {
    ToggleTwiceRestores(f.tags, TagRefId, TagRef(id, TagName(available, id)));
  }

  /** Appending a tag appends its id. */
  lemma SelectedIdsAppend(tags: seq<TagRef>, t: TagRef)
    ensures SelectedIds(tags + [t]) == SelectedIds(tags) + [t.id]
  {
    assert forall i :: 0 <= i < |tags| ==> (tags + [t])[i] == tags[i];
  }

  /** A picked tag's id reaches the request body, after the ids picked before it. */
  lemma PickedTagIsSent(f: Form, id: int, available: seq<Tag>, st: Store, resp: Response<Issue>)
    requires !HasId(f.tags, TagRefId, id)
    requires !Blank(f.title) && BearerToken(st).Some? && !Falsy(f.statusId) && !Falsy(f.priorityId)
    ensures var r := Submit(ToggleTag(f, id, available), st, resp);
      r.sent.Some? && r.sent.value.tagIds == SelectedIds(f.tags) + [id]
  {
    var t := TagRef(id, TagName(available, id));
    var g := ToggleTag(f, id, available);
    assert g == f.(tags := f.tags + [t]);
    var ids := Submit(g, st, resp).sent.value.tagIds;
    assert ids == SelectedIds(g.tags);
    SelectedIdsAppend(f.tags, t);
  }

  /** A rejected submission can be retried unchanged: the form keeps every field it had. */
  lemma FailureKeepsInput(f: Form, st: Store, resp: Response<Issue>)
    requires !resp.Ok?
    ensures Submit(f, st, resp).form.(error := None) == f.(error := None)
  {
  }
}

=== FILE: api.dfy ===
/**
 * The request gateway: resolving a request path against the backend base URL and
 * merging the default `Content-Type` and the bearer `Authorization` into the caller's headers.
 * Header names are the canonical spellings; `fetch` itself is not modelled, only the
 * request it would be given.
 */
module Api {
  import opened Wrappers
  import opened Text
  import opened Storage

  const DefaultBackend: string := "http://localhost:5000"
  const ContentTypeHeader: string := "Content-Type"
  const AuthorizationHeader: string := "Authorization"
  const JsonMediaType: string := "application/json"

  type Headers = map<string, string>

  /** What `fetchWithAuth` accepts: a path string, a `URL` object, or a `Request` carrying a url. */
  datatype RequestInput = PathInput(path: string) | UrlInput(href: string) | RequestObject(url: string)

  /** `RequestInit`: the headers plus every other field, kept abstract as `F`. */
  datatype Init<F> = Init(headers: Headers, fields: F)

  /** The arguments handed to `fetch`. */
  datatype Request<F> = Request(url: string, init: Init<F>)

  /** `process.env.NEXT_PUBLIC_API_URL || 'http://localhost:5000'`. */
  function BackendUrl(env: Option<string>): (base: string)
    ensures env.Some? && env.value != "" ==> base == env.value
    ensures env.None? || env.value == "" ==> base == DefaultBackend
  {
    if env.Some? && env.value != "" then env.value else DefaultBackend
  }

  predicate IsAbsolute(path: string) {
    StartsWith(path, "http://") || StartsWith(path, "https://")
  }

  /**
   * `getApiUrl`: an absolute http(s) URL is used as it is; anything else is appended to
   * the base after a single `/`, with at most one leading `/` of the path dropped.
   */
  function GetApiUrl(base: string, path: string): (url: string)
    ensures IsAbsolute(path) ==> url == path
    ensures !IsAbsolute(path) ==> StartsWith(url, base + "/")
    ensures !IsAbsolute(path) && StartsWith(path, "/") ==> "/" + url[|base| + 1..] == path
    ensures !IsAbsolute(path) && !StartsWith(path, "/") ==> url[|base| + 1..] == path
  {
    if IsAbsolute(path) then path
    else
      var clean := if StartsWith(path, "/") then path[1..] else path;
      var url := base + "/" + clean;
      assert url[..|base + "/"|] == base + "/";
      assert url[|base| + 1..] == clean;
      assert StartsWith(path, "/") ==> path == "/" + path[1..];
      url
  }

  /** "/api/x" and "api/x" name the same endpoint. */
  lemma LeadingSlashOptional(base: string, path: string)
    requires !IsAbsolute(path) && !StartsWith(path, "/")
    ensures GetApiUrl(base, "/" + path) == GetApiUrl(base, path)
  {
    var p := "/" + path;
    assert StartsWith(p, "/");
    assert p[1..] == path;
    assert !IsAbsolute(p) by {
      assert !StartsWith(p, "http://") by { assert p[0] == '/'; }
      assert !StartsWith(p, "https://") by { assert p[0] == '/'; }
    }
  }

  /** Step 1 of `fetchWithAuth`: the full URL for each input shape. A `URL` object is used verbatim. */
  function ResolveUrl(base: string, input: RequestInput): (url: string)
    ensures input.UrlInput? ==> url == input.href
    ensures input.PathInput? ==> url == GetApiUrl(base, input.path)
    ensures input.RequestObject? ==> url == GetApiUrl(base, input.url)
  {
    match input
    case PathInput(p) => GetApiUrl(base, p)
    case UrlInput(h) => h
    case RequestObject(u) => GetApiUrl(base, u)
  }

  /** `if (!headers.has("Content-Type")) headers.set("Content-Type", "application/json")`. */
  function WithDefaultContentType(h: Headers): (r: Headers)
    ensures r.Keys == h.Keys + {ContentTypeHeader}
    ensures ContentTypeHeader in h ==> r == h
    ensures ContentTypeHeader !in h ==> r[ContentTypeHeader] == JsonMediaType
    ensures forall k :: k in h ==> r[k] == h[k]
  {
    if ContentTypeHeader in h then h else h[ContentTypeHeader := JsonMediaType]
  }

  /**
   * The header merge of `fetchWithAuth`: the caller's headers, the default content type
   * when the caller gave none, and `Bearer <token>` when a truthy token is stored.
   */
  function MergeHeaders(h: Headers, token: Option<string>): (r: Headers)
    ensures ContentTypeHeader in r
    ensures ContentTypeHeader in h ==> r[ContentTypeHeader] == h[ContentTypeHeader]
    ensures ContentTypeHeader !in h ==> r[ContentTypeHeader] == JsonMediaType
    ensures token.Some? && token.value != "" ==>
      AuthorizationHeader in r && r[AuthorizationHeader] == "Bearer " + token.value
    ensures (token.None? || token.value == "") ==>
      (AuthorizationHeader in r <==> AuthorizationHeader in h)
    ensures forall k :: k in h ==> k in r
    ensures forall k :: k in h && k != AuthorizationHeader ==> r[k] == h[k]
    ensures forall k :: k in r ==> k in h || k == ContentTypeHeader || k == AuthorizationHeader
    ensures (token.None? || token.value == "") ==> r == WithDefaultContentType(h)
  {
    var withType := WithDefaultContentType(h);
    if token.Some? && token.value != "" then withType[AuthorizationHeader := "Bearer " + token.value]
    else withType
  }

  /** Merging a second time with the same token adds nothing. */
  lemma MergeHeadersIdempotent(h: Headers, token: Option<string>)
    ensures MergeHeaders(MergeHeaders(h, token), token) == MergeHeaders(h, token)
  {
  }

  /**
   * `fetchWithAuth(input, init)`: the resolved URL and `{...init, headers}`, where the token
   * is read from `localStorage` only when there is one (`storage` is `None` outside a browser).
   */
  function FetchWithAuth<F>(base: string, input: RequestInput, init: Init<F>, storage: Option<Store>): (r: Request<F>)
    ensures r.url == ResolveUrl(base, input)
    ensures r.init.fields == init.fields
    ensures storage.Some? && BearerToken(storage.value).Some? ==>
      AuthorizationHeader in r.init.headers &&
      r.init.headers[AuthorizationHeader] == "Bearer " + storage.value[AccessTokenKey]
    ensures storage.Some? ==> r.init.headers == MergeHeaders(init.headers, BearerToken(storage.value))
    ensures (storage.None? || BearerToken(storage.value).None?) ==>
      r.init.headers == WithDefaultContentType(init.headers)
  {
    var token := if storage.Some? && AccessTokenKey in storage.value then Some(storage.value[AccessTokenKey]) else None;
    Request(ResolveUrl(base, input), Init(MergeHeaders(init.headers, token), init.fields))
  }

  /** `apiFetch(path, init)`: the same URL and content-type rules, never an `Authorization` header. */
  function ApiFetch<F>(base: string, path: string, init: Init<F>): (r: Request<F>)
    ensures r.url == GetApiUrl(base, path)
    ensures r.init.fields == init.fields
    ensures AuthorizationHeader in r.init.headers <==> AuthorizationHeader in init.headers
    ensures ContentTypeHeader in r.init.headers
  {
    Request(GetApiUrl(base, path), Init(WithDefaultContentType(init.headers), init.fields))
  }

  /** Without a stored token the authenticated gateway sends exactly what `apiFetch` sends. */
  lemma AnonymousFetchIsApiFetch<F>(base: string, path: string, init: Init<F>, storage: Option<Store>)
    requires storage.None? || BearerToken(storage.value).None?
    ensures FetchWithAuth(base, PathInput(path), init, storage) == ApiFetch(base, path, init)
  {
  }
}

=== FILE: comments.dfy ===
/**
 * The comment thread of one issue: the page window read from the URL query, the
 * fetch query, filter edits and paging as navigation targets, the edit/delete gate,
 * and the local reducers applied after the server answers an add, edit or delete.
 */
module Comments {
  import opened Wrappers
  import opened Text
  import opened JsNumbers
  import opened Domain
  import opened Responses
  import opened Lists
  import opened QueryState

  const DefaultLimit: int := 5

  /** The filter inputs of the thread; each writes one query key. */
  const FilterKeys: set<string> := {"author_name", "start", "end"}

  /** `commentsData`: the shown page and the window it was asked for. */
  datatype Page = Page(data: seq<Comment>, totalCount: int, skip: int, limit: int)

  datatype View = View(
    page: Page,
    editingId: Option<int>,
    editContent: string,
    showAddForm: bool,
    newText: string,
    deleteTarget: Option<Comment>,
    dialogOpen: bool,
    showFilters: bool)

  const InitialPage: Page := Page([], 0, 0, DefaultLimit)

  /** A handler's result: the new view, whether a request went out, whether a reload follows. */
  datatype Outcome = Outcome(view: View, sent: bool, reload: bool)

  /** First half of the query effect: the window is read from the URL, the rest of the page kept. */
  function OnQueryChange(p: Page, q: Query): (r: Page)
    ensures r.data == p.data && r.totalCount == p.totalCount
    ensures Window(r.skip, r.limit) == Normalise(q, DefaultLimit)
    ensures "skip" !in q ==> r.skip == 0
    ensures "limit" !in q ==> r.limit == 5
  {
    var w := Normalise(q, DefaultLimit);
    p.(skip := w.skip, limit := w.limit)
  }

  /**
   * Second half: the reply's JSON replaces `commentsData` wholesale. The status is never
   * checked, so a non-2xx reply leaves its error body where the page was; a rejected
   * fetch keeps the page.
   */
  function OnFetched(p: Page, reply: Response<Page>): (r: Loaded<Page>)
    ensures r.Broken? <==> reply.HttpErr?
    ensures reply.Ok? ==> r.value == reply.body
    ensures reply.HttpErr? ==> r.body == reply.fields
    ensures reply.Failed? ==> r.value == p
  {
    match reply
    case Ok(served) => Shown(served)
    case HttpErr(fields) => Broken(fields)
    case Failed(_) => Shown(p)
  }

  /** After a successful fetch the page is the server's, whatever window the URL asked for. */
  lemma ServedPageWins(p: Page, q: Query, served: Page)
    ensures OnFetched(OnQueryChange(p, q), Ok(served)) == Shown(served)
  {
  }

  /** A rejected fetch keeps the URL's window over the previous page's comments. */
  lemma RejectedFetchKeepsUrlWindow(p: Page, q: Query, reason: string)
    ensures var r := OnFetched(OnQueryChange(p, q), Failed(reason));
      r.Shown? && r.value.data == p.data && Window(r.value.skip, r.value.limit) == Normalise(q, DefaultLimit)
  {
  }

  /** The query of `GET /api/issues/{id}/comments`. */
  function CommentsQuery(q: Query): (r: Query)
    ensures r.Keys == q.Keys + {SkipKey, LimitKey}
    ensures forall k :: k in q && k != SkipKey && k != LimitKey ==> r[k] == q[k]
    ensures r[SkipKey] == IntToString(Normalise(q, DefaultLimit).skip)
    ensures r[LimitKey] == IntToString(Normalise(q, DefaultLimit).limit)
    ensures Normalise(r, DefaultLimit) == Normalise(q, DefaultLimit)
  {
    FetchQueryNormalises(q, DefaultLimit);
    FetchQuery(q, DefaultLimit)
  }

  /** The `onChange` of the author-name, start and end inputs: the target query. */
  function EditFilter(q: Query, key: string, value: string): (r: Query)
    requires key in FilterKeys
    ensures SkipKey in r && r[SkipKey] == "0"
    ensures Normalise(r, DefaultLimit).skip == 0
    ensures value != "" ==> key in r && r[key] == value
    ensures value == "" ==> key !in r
    ensures forall k :: k != key && k != SkipKey ==> (k in r <==> k in q)
    ensures forall k :: k in q && k != key && k != SkipKey ==> r[k] == q[k]
  {
    SetFilterResetsSkip(q, key, value, DefaultLimit);
    SetFilter(q, key, value)
  }

  /** The "Filters" button shows or hides the filter inputs. */
  function ToggleFilters(v: View): (r: View)
    ensures r.showFilters == !v.showFilters && r.(showFilters := v.showFilters) == v
  {
    v.(showFilters := !v.showFilters)
  }

  /**
   * "Clear Filters" navigates to the issue with no query at all and hides the filter
   * inputs: the target carries no filter, and it reads as the first page with the
   * default limit.
   */
  function ClearFilters(v: View): (r: (View, Query))
    ensures forall k :: k !in r.1
    ensures Normalise(r.1, DefaultLimit) == Window(0, DefaultLimit)
    ensures !r.0.showFilters && r.0.(showFilters := v.showFilters) == v
  {
    (v.(showFilters := false), map[])
  }

  /** A filter typed after clearing is the only filter: the query holds just it and `skip`. */
  lemma EditAfterClearIsOnlyFilter(v: View, key: string, value: string)
    requires key in FilterKeys
    ensures var r := EditFilter(ClearFilters(v).1, key, value);
      && r[SkipKey] == "0"
      && forall k :: k in r <==> k == SkipKey || (value != "" && k == key)
  {
  }

  /** The Previous button's target: only `skip` changes, to `max(0, skip - limit)`. */
  function PrevTarget(q: Query, p: Page): (r: Query)
    ensures Normalise(r, DefaultLimit).skip == if p.skip - p.limit > 0 then p.skip - p.limit else 0
    ensures Normalise(r, DefaultLimit).skip >= 0
    ensures forall k :: k != SkipKey ==> (k in r <==> k in q)
    ensures forall k :: k in q && k != SkipKey ==> r[k] == q[k]
  {
    var target := if p.skip - p.limit > 0 then p.skip - p.limit else 0;
    PagingKeepsFilters(q, target);
    Overlay(q, map[SkipKey := IntToString(target)])
  }

  /** The Next button's target: only `skip` changes, to `skip + limit`. */
  function NextTarget(q: Query, p: Page): (r: Query)
    ensures Normalise(r, DefaultLimit).skip == p.skip + p.limit
    ensures forall k :: k != SkipKey ==> (k in r <==> k in q)
    ensures forall k :: k in q && k != SkipKey ==> r[k] == q[k]
  {
    PagingKeepsFilters(q, p.skip + p.limit);
    Overlay(q, map[SkipKey := IntToString(p.skip + p.limit)])
  }

  predicate PrevDisabled(p: Page) {
    p.skip == 0
  }

  predicate NextDisabled(p: Page) {
    p.skip + p.limit >= p.totalCount
  }

  /** "Showing first to last of total comments". */
  datatype Range = Range(first: int, last: int, total: int)

  /** The range label, shown only when there is at least one comment. */
  function RangeLabel(p: Page): (r: Option<Range>)
    ensures r.Some? <==> p.totalCount > 0
    ensures r.Some? ==> r.value.first == p.skip + 1 && r.value.total == p.totalCount
    ensures r.Some? ==> r.value.last <= p.totalCount && r.value.last <= p.skip + p.limit
    ensures r.Some? ==> r.value.last == p.totalCount || r.value.last == p.skip + p.limit
    ensures r.Some? && 0 <= p.skip < p.totalCount && p.limit > 0 ==> 1 <= r.value.first <= r.value.last
  {
    if p.totalCount > 0 then
      var last := if p.skip + p.limit < p.totalCount then p.skip + p.limit else p.totalCount;
      Some(Range(p.skip + 1, last, p.totalCount))
    else None
  }

  /**
   * `handleAddComment`: nothing is sent for blank text; a successful reply is appended
   * and counted, the form is cleared and closed, and a reload follows; any failure
   * leaves the view as it was.
   */
  function AddComment(v: View, resp: Response<Comment>): (r: Outcome)
    ensures Blank(v.newText) ==> r == Outcome(v, false, false)
    ensures !Blank(v.newText) ==> r.sent
    ensures !Blank(v.newText) && resp.Ok? ==>
      && r.view.page.data == v.page.data + [resp.body]
      && r.view.page.totalCount == v.page.totalCount + 1
      && r.view.newText == "" && !r.view.showAddForm && r.reload
    ensures !Blank(v.newText) && resp.Ok? ==>
      r.view == v.(page := v.page.(data := v.page.data + [resp.body], totalCount := v.page.totalCount + 1),
                   newText := "", showAddForm := false)
    ensures !resp.Ok? ==> r.view == v && !r.reload
  {
    TrimEmptyIffBlank(v.newText);
    if Trim(v.newText) == "" then Outcome(v, false, false)
    else
      match resp
      case Ok(c) =>
        var page := v.page.(data := v.page.data + [c], totalCount := v.page.totalCount + 1);
        Outcome(v.(page := page, newText := "", showAddForm := false), true, true)
      case _ => Outcome(v, true, false)
  }

  /** `startEdit`. */
  function StartEdit(v: View, c: Comment): (r: View)
    ensures r.editingId == Some(c.id) && r.editContent == c.content && r.page == v.page
    ensures r == v.(editingId := Some(c.id), editContent := c.content)
  {
    v.(editingId := Some(c.id), editContent := c.content)
  }

  /**
   * `handleEditSave`: nothing is sent without a (truthy) editing id or with blank text;
   * success leaves edit mode and reloads; failure keeps everything.
   */
  function SaveEdit(v: View, resp: Response<Comment>): (r: Outcome)
    ensures v.editingId.None? || v.editingId == Some(0) || Blank(v.editContent) ==> r == Outcome(v, false, false)
    ensures v.editingId.Some? && v.editingId.value != 0 && !Blank(v.editContent) ==> r.sent
    ensures r.sent && resp.Ok? ==> r == Outcome(v.(editingId := None, editContent := ""), true, true)
    ensures r.view.page == v.page
    ensures !resp.Ok? ==> r.view == v && !r.reload
  {
    TrimEmptyIffBlank(v.editContent);
    if v.editingId.None? || v.editingId.value == 0 || Trim(v.editContent) == "" then Outcome(v, false, false)
    else if resp.Ok? then Outcome(v.(editingId := None, editContent := ""), true, true)
    else Outcome(v, true, false)
  }

  /**
   * Editing a comment and saving it with an accepted reply sends the PUT, reloads, and
   * returns a view that was not editing to exactly where it was.
   */
  lemma StartThenSaveReturns(v: View, c: Comment, updated: Comment)
    requires v.editingId.None? && v.editContent == ""
    requires c.id != 0 && !Blank(c.content)
    ensures SaveEdit(StartEdit(v, c), Ok(updated)) == Outcome(v, true, true)
  {
  }

  /** `handleDeleteComment`: record the target and open the dialog; no request. */
  function RequestDelete(v: View, c: Comment): (r: View)
    ensures r.deleteTarget == Some(c) && r.dialogOpen && r.page == v.page
    ensures r == v.(deleteTarget := Some(c), dialogOpen := true)
  {
    v.(deleteTarget := Some(c), dialogOpen := true)
  }

  /**
   * The dialog's confirm button: `confirmDeleteComment` runs, then the dialog closes.
   * Without a target nothing is sent; on success the comment leaves the page, the count
   * drops by one and a reload follows; any failure keeps the page.
   */
  function ConfirmDelete(v: View, resp: Response<()>): (r: Outcome)
    ensures !r.view.dialogOpen && r.view.deleteTarget == v.deleteTarget
    ensures v.deleteTarget.None? ==> r == Outcome(v.(dialogOpen := false), false, false)
    ensures v.deleteTarget.Some? ==> r.sent
    ensures v.deleteTarget.Some? && resp.Ok? ==>
      && (forall i :: 0 <= i < |r.view.page.data| ==> r.view.page.data[i] in v.page.data && r.view.page.data[i].id != v.deleteTarget.value.id)
      && (forall i :: 0 <= i < |v.page.data| && v.page.data[i].id != v.deleteTarget.value.id ==> v.page.data[i] in r.view.page.data)
      && r.view.page.totalCount == v.page.totalCount - 1
      && r.reload
    ensures v.deleteTarget.Some? && resp.Ok? ==>
      r.view == v.(page := v.page.(data := RemoveById(v.page.data, CommentId, v.deleteTarget.value.id),
                                   totalCount := v.page.totalCount - 1),
                   dialogOpen := false)
    ensures !resp.Ok? ==> r.view == v.(dialogOpen := false) && !r.reload
  {
    match v.deleteTarget
    case None => Outcome(v.(dialogOpen := false), false, false)
    case Some(target) =>
      if resp.Ok? then
        var page := v.page.(data := RemoveById(v.page.data, CommentId, target.id), totalCount := v.page.totalCount - 1);
        Outcome(v.(page := page, dialogOpen := false), true, true)
      else Outcome(v.(dialogOpen := false), true, false)
  }

  /** The dialog's cancel button or a dismissal: it closes and nothing is sent. */
  function DismissDialog(v: View): (r: View)
    ensures !r.dialogOpen && r.(dialogOpen := v.dialogOpen) == v
  {
    v.(dialogOpen := false)
  }

  /**
   * A comment added with a fresh id and then deleted through the dialog leaves the page's
   * comments and count as they were before the add.
   */
  lemma AddThenDeleteRestores(v: View, c: Comment)
    requires !Blank(v.newText)
    requires forall i :: 0 <= i < |v.page.data| ==> v.page.data[i].id != c.id
    ensures var added := AddComment(v, Ok(c)).view;
      var deleted := ConfirmDelete(RequestDelete(added, c), Ok(())).view;
      deleted.page.data == v.page.data && deleted.page.totalCount == v.page.totalCount
  {
    var added := AddComment(v, Ok(c)).view;
    assert added.page.data == v.page.data + [c];
    RemoveSoleOccurrence(v.page.data, c, [], CommentId);
    assert v.page.data + [c] + [] == v.page.data + [c];
  }

  /**
   * The paging buttons never leave the list: an enabled Prev moves back but not below 0,
   * a disabled Prev stays at 0, and an enabled Next moves forward to an offset that is
   * still inside the total.
   */
  lemma PagingStaysInRange(q: Query, p: Page)
    requires 0 <= p.skip && p.limit > 0
    ensures !PrevDisabled(p) ==> 0 <= Normalise(PrevTarget(q, p), DefaultLimit).skip < p.skip
    ensures PrevDisabled(p) ==> Normalise(PrevTarget(q, p), DefaultLimit).skip == 0
    ensures !NextDisabled(p) ==> p.skip < Normalise(NextTarget(q, p), DefaultLimit).skip < p.totalCount
  {
  }

  /**
   * When the deleted comment occurs once on the page, the page loses exactly one entry,
   * so the shown count and the list shrink together.
   */
  lemma DeleteShrinksPageByOne(v: View, resp: Response<()>)
    requires v.deleteTarget.Some? && resp.Ok?
    requires CountId(v.page.data, CommentId, v.deleteTarget.value.id) == 1
    ensures |ConfirmDelete(v, resp).view.page.data| == |v.page.data| - 1
    ensures ConfirmDelete(v, resp).view.page.totalCount - |ConfirmDelete(v, resp).view.page.data|
         == v.page.totalCount - |v.page.data|
  {
    RemoveByIdLength(v.page.data, CommentId, v.deleteTarget.value.id);
  }
}

=== FILE: domain.dfy ===
/** The records the client exchanges with the server, reduced to the fields the handlers use. */
module Domain {
  import opened Wrappers

  const AdminRole: string := "admin"

  /** The signed-in principal as the session store keeps it. */
  datatype User = User(id: int, name: string, role: string)

  /** A tag as selected in a form: `{id, name}`. */
  datatype TagRef = TagRef(id: int, name: string)

  /** A tag as the server lists it. */
  datatype Tag = Tag(id: int, name: string, color: string)

  /** A status or a priority: `{id, name}`. */
  datatype Term = Term(id: int, name: string)

  /** A comment; `authorId` is `comment.author?.id`. */
  datatype Comment = Comment(id: int, content: string, authorId: Option<int>)

  /** An issue as the list shows and edits it; `authorId` is `issue.author?.id`. */
  datatype Issue = Issue(id: int, title: string, authorId: Option<int>, status: string, priority: string, tags: seq<TagRef>)

  /**
   * The gate on the Edit and Delete controls of both views:
   * `role === 'admin' || (user && user.id === authorId)`.
   */
  function IsOwnerOrAdmin(role: Option<string>, user: Option<User>, authorId: Option<int>): (allowed: bool)
    ensures allowed <==> role == Some(AdminRole) || (user.Some? && authorId == Some(user.value.id))
    ensures !allowed ==> role != Some(AdminRole)
    ensures user.None? && role != Some(AdminRole) ==> !allowed
  {
    role == Some(AdminRole) || (user.Some? && authorId.Some? && user.value.id == authorId.value)
  }

  function CommentId(c: Comment): int { c.id }
  function IssueId(i: Issue): int { i.id }
  function TagId(t: Tag): int { t.id }
  function TermId(t: Term): int { t.id }
  function TagRefId(t: TagRef): int { t.id }
}

=== FILE: issue_filters.dfy ===
/**
 * The tag-filter picker: a selection of tags, a combination logic, and an Apply button
 * that only notifies its parent (the selection is not yet turned into a query).
 */
module IssueFilters {
  import opened Domain
  import opened Lists

  datatype Logic = And | Or

  datatype Picker = Picker(selected: seq<Tag>, logic: Logic)

  /** The picker on mount: nothing selected, "AND" logic. */
  function Initial(): (p: Picker)
    ensures p.selected == [] && p.logic == And
  {
    Picker([], And)
  }

  /** `toggleTag(tag)`: deselect every tag with its id, or append it when none is selected. */
  function ToggleTag(p: Picker, t: Tag): (r: Picker)
    ensures HasId(r.selected, TagId, t.id) <==> !HasId(p.selected, TagId, t.id)
    ensures !HasId(p.selected, TagId, t.id) ==> r.selected == p.selected + [t]
    ensures forall i :: 0 <= i < |r.selected| ==> r.selected[i] in p.selected || r.selected[i] == t
    ensures forall i :: 0 <= i < |p.selected| && p.selected[i].id != t.id ==> p.selected[i] in r.selected
    ensures r.logic == p.logic
  {
    p.(selected := Toggle(p.selected, TagId, t))
  }

  /** A tag button shows as selected when some selected tag has its id. */
  predicate ShownSelected(p: Picker, t: Tag) {
    HasId(p.selected, TagId, t.id)
  }

  /** The logic dropdown. */
  function SetLogic(p: Picker, l: Logic): (r: Picker)
    ensures r.logic == l && r.selected == p.selected
  {
    p.(logic := l)
  }

  /** `handleFilter`: the picker is unchanged and the parent's `onFilterApply` is called once. */
  function Apply(p: Picker): (r: (Picker, bool))
    ensures r.0 == p && r.1
  {
    (p, true)
  }

  /** Clicking an unselected tag twice leaves the picker as it was. */
  lemma ToggleTwiceRestores(p: Picker, t: Tag)
    requires !ShownSelected(p, t)
    ensures ToggleTag(ToggleTag(p, t), t) == p
  {
    Lists.ToggleTwiceRestores(p.selected, TagId, t);
  }

  /** Toggling a selected tag keeps the other selected tags in their order. */
  lemma {:induction false} DeselectKeepsOrder(p: Picker, a: seq<Tag>, t: Tag, b: seq<Tag>)
    requires p.selected == a + [t] + b
    requires forall i :: 0 <= i < |a| ==> a[i].id != t.id
    requires forall i :: 0 <= i < |b| ==> b[i].id != t.id
    ensures ToggleTag(p, t).selected == a + b
  {
    assert (a + [t] + b)[|a|] == t;
    assert ShownSelected(p, t);
    RemoveSoleOccurrence(a, t, b, TagId);
  }
}

=== FILE: issues.dfy ===
/**
 * The issue list: the window read from the URL, the page the server returns, the
 * edit/save, delete and add reducers, and the paging targets.
 */
module Issues {
  import opened Wrappers
  import opened Text
  import opened Domain
  import opened Storage
  import opened Responses
  import opened Lists
  import opened QueryState

  const PageSize: int := 5

  const LoginRequiredMessage: string := "You must log in before editing an issue."
  const UpdateFailedMessage: string := "Failed to update issue"

  /** The body of `GET /api/issues`. */
  datatype Page = Page(data: seq<Issue>, totalCount: int, skip: int, limit: int)

  /** The inline edit form. */
  datatype EditForm = EditForm(title: string, priority: string, status: string, tags: seq<TagRef>)

  /** The body of `PUT /api/issues/{id}`. */
  datatype UpdatePayload = UpdatePayload(title: string, priority: string, status: string, tagIds: seq<int>)

  datatype View = View(
    issues: seq<Issue>,
    totalCount: int,
    skip: int,
    limit: int,
    editingId: Option<int>,
    editError: Option<string>,
    form: EditForm,
    showAddForm: bool)

  /** A save's result: the new view and the request body, if a request went out. */
  datatype SaveOutcome = SaveOutcome(view: View, request: Option<UpdatePayload>)

  /** First half of the query effect: the window is read from the URL with `PAGE_SIZE` as default limit. */
  function OnQueryChange(v: View, q: Query): (r: View)
    ensures Window(r.skip, r.limit) == Normalise(q, PageSize)
    ensures r.issues == v.issues && r.totalCount == v.totalCount
  {
    var w := Normalise(q, PageSize);
    v.(skip := w.skip, limit := w.limit)
  }

  /** The query of `GET /api/issues`. */
  function IssuesQuery(q: Query): (r: Query)
    ensures r.Keys == q.Keys + {SkipKey, LimitKey}
    ensures forall k :: k in q && k != SkipKey && k != LimitKey ==> r[k] == q[k]
    ensures r[SkipKey] == IntToString(Normalise(q, PageSize).skip)
    ensures r[LimitKey] == IntToString(Normalise(q, PageSize).limit)
    ensures Normalise(r, PageSize) == Normalise(q, PageSize)
  {
    FetchQueryNormalises(q, PageSize);
    FetchQuery(q, PageSize)
  }

  /**
   * Second half: issues, count, skip and limit are all set from the reply's JSON. The
   * status is never checked, so a non-2xx reply leaves its error body where the page
   * was; a rejected fetch changes nothing.
   */
  function OnFetched(v: View, reply: Response<Page>): (r: Loaded<View>)
    ensures r.Broken? <==> reply.HttpErr?
    ensures reply.HttpErr? ==> r.body == reply.fields
    ensures reply.Ok? ==>
      && r.value.issues == reply.body.data && r.value.totalCount == reply.body.totalCount
      && r.value.skip == reply.body.skip && r.value.limit == reply.body.limit
    ensures reply.Ok? ==>
      r.value == v.(issues := reply.body.data, totalCount := reply.body.totalCount, skip := reply.body.skip, limit := reply.body.limit)
    ensures reply.Failed? ==> r.value == v
    ensures r.Shown? ==> r.value.editingId == v.editingId && r.value.form == v.form && r.value.showAddForm == v.showAddForm
  {
    match reply
    case Ok(p) => Shown(v.(issues := p.data, totalCount := p.totalCount, skip := p.skip, limit := p.limit))
    case HttpErr(fields) => Broken(fields)
    case Failed(_) => Shown(v)
  }

  /** After a successful fetch the window is the server's, whatever the URL asked for. */
  lemma ServedWindowWins(v: View, q: Query, p: Page)
    ensures var r := OnFetched(OnQueryChange(v, q), Ok(p));
      r.Shown? && Window(r.value.skip, r.value.limit) == Window(p.skip, p.limit)
  {
  }

  /** A rejected fetch keeps the URL's window over the previous issues. */
  lemma RejectedFetchKeepsUrlWindow(v: View, q: Query, reason: string)
    ensures var r := OnFetched(OnQueryChange(v, q), Failed(reason));
      r.Shown? && r.value.issues == v.issues && Window(r.value.skip, r.value.limit) == Normalise(q, PageSize)
  {
  }

  /** `handleEdit`: the form is filled from the issue. */
  function StartEdit(v: View, issue: Issue): (r: View)
    ensures r.editingId == Some(issue.id)
    ensures r.form == EditForm(issue.title, issue.priority, issue.status, issue.tags)
    ensures r.issues == v.issues
    ensures r == v.(editingId := Some(issue.id), form := EditForm(issue.title, issue.priority, issue.status, issue.tags))
  {
    v.(editingId := Some(issue.id), form := EditForm(issue.title, issue.priority, issue.status, issue.tags))
  }

  function PayloadOf(f: EditForm): (p: UpdatePayload)
    ensures |p.tagIds| == |f.tags|
    ensures forall i :: 0 <= i < |f.tags| ==> p.tagIds[i] == f.tags[i].id
  {
    UpdatePayload(f.title, f.priority, f.status, seq(|f.tags|, i requires 0 <= i < |f.tags| => f.tags[i].id))
  }

  /**
   * `handleUpdate`: nothing happens outside edit mode; without a stored token the error
   * asks the user to log in and nothing is sent; a successful reply replaces the edited
   * issue in place and ends edit mode; a failed one keeps the list and shows the
   * server's `message`, the fallback, or the exception's message.
   */
  function Update(v: View, storage: Store, resp: Response<Issue>): (r: SaveOutcome)
    ensures v.editingId.None? ==> r == SaveOutcome(v, None)
    ensures v.editingId.Some? && BearerToken(storage).None? ==>
      r.request.None? && r.view == v.(editError := Some(LoginRequiredMessage))
    ensures r.request.Some? <==> v.editingId.Some? && BearerToken(storage).Some?
    ensures r.request.Some? ==> r.request.value == PayloadOf(v.form)
    ensures r.request.Some? && resp.Ok? ==>
      && |r.view.issues| == |v.issues|
      && (forall i :: 0 <= i < |v.issues| && v.issues[i].id == v.editingId.value ==> r.view.issues[i] == resp.body)
      && (forall i :: 0 <= i < |v.issues| && v.issues[i].id != v.editingId.value ==> r.view.issues[i] == v.issues[i])
      && r.view.editingId.None? && r.view.editError.None?
    ensures r.request.Some? && resp.Ok? ==>
      r.view == v.(issues := ReplaceById(v.issues, IssueId, v.editingId.value, resp.body), editingId := None, editError := None)
    ensures !resp.Ok? ==> r.view.issues == v.issues && r.view.editingId == v.editingId
    ensures r.request.Some? && resp.HttpErr? ==>
      r.view == v.(editError := Some(ErrorField(resp.fields, "message", UpdateFailedMessage)))
    ensures r.request.Some? && resp.Failed? ==> r.view == v.(editError := Some(resp.reason))
  {
    match v.editingId
    case None => SaveOutcome(v, None)
    case Some(id) =>
      var cleared := v.(editError := None);
      if BearerToken(storage).None? then SaveOutcome(cleared.(editError := Some(LoginRequiredMessage)), None)
      else
        var payload := PayloadOf(v.form);
        match resp
        case Ok(updated) =>
          SaveOutcome(cleared.(issues := ReplaceById(v.issues, IssueId, id, updated), editingId := None), Some(payload))
        case HttpErr(fields) =>
          SaveOutcome(cleared.(editError := Some(ErrorField(fields, "message", UpdateFailedMessage))), Some(payload))
        case Failed(reason) =>
          SaveOutcome(cleared.(editError := Some(reason)), Some(payload))
  }

  /**
   * `handleDelete`: a declined prompt sends nothing; once the request settles, whatever
   * its status, the id leaves the list; a rejected request keeps it. The count is not touched.
   */
  function Delete(v: View, id: int, confirmed: bool, settled: bool): (r: View)
    ensures !confirmed || !settled ==> r == v
    ensures r.totalCount == v.totalCount
    ensures confirmed && settled ==>
      && (forall i :: 0 <= i < |r.issues| ==> r.issues[i].id != id)
      && (forall i :: 0 <= i < |v.issues| && v.issues[i].id != id ==> v.issues[i] in r.issues)
    ensures confirmed && settled ==> r == v.(issues := RemoveById(v.issues, IssueId, id))
  {
    if confirmed && settled then v.(issues := RemoveById(v.issues, IssueId, id)) else v
  }

  /** `handleAdd`: the new issue goes to the end and the add form closes. */
  function Add(v: View, issue: Issue): (r: View)
    ensures r.issues == v.issues + [issue]
    ensures r.totalCount == v.totalCount && !r.showAddForm
    ensures r == v.(issues := v.issues + [issue], showAddForm := false)
  {
    v.(issues := v.issues + [issue], showAddForm := false)
  }

  /** The Prev button's target: `skip = max(0, skip - limit)` and `limit = PAGE_SIZE`, filters kept. */
  function PrevTarget(q: Query, v: View): (r: Query)
    ensures Normalise(r, PageSize) == Window(if v.skip - v.limit > 0 then v.skip - v.limit else 0, PageSize)
    ensures forall k :: k != SkipKey && k != LimitKey ==> (k in r <==> k in q)
    ensures forall k :: k in q && k != SkipKey && k != LimitKey ==> r[k] == q[k]
  {
    var target := if v.skip - v.limit > 0 then v.skip - v.limit else 0;
    PagingTarget(q, target, PageSize)
  }

  /** The Next button's target: `skip = skip + limit` and `limit = PAGE_SIZE`, filters kept. */
  function NextTarget(q: Query, v: View): (r: Query)
    ensures Normalise(r, PageSize) == Window(v.skip + v.limit, PageSize)
    ensures forall k :: k != SkipKey && k != LimitKey ==> (k in r <==> k in q)
    ensures forall k :: k in q && k != SkipKey && k != LimitKey ==> r[k] == q[k]
  {
    PagingTarget(q, v.skip + v.limit, PageSize)
  }

  /** `updateQuery({skip, limit})`: both written into the current query, every other key kept. */
  function PagingTarget(q: Query, skip: int, limit: int): (r: Query)
    ensures Normalise(r, PageSize) == Window(skip, limit)
    ensures forall k :: k != SkipKey && k != LimitKey ==> (k in r <==> k in q)
    ensures forall k :: k in q && k != SkipKey && k != LimitKey ==> r[k] == q[k]
  {
    WrittenWindowReadsBack(q, Window(skip, limit), PageSize);
    WriteWindow(q, Window(skip, limit))
  }

  predicate PrevDisabled(v: View) {
    v.skip == 0
  }

  /** Next is disabled once the shown issues reach the total. */
  predicate NextDisabled(v: View) {
    v.skip + |v.issues| >= v.totalCount
  }

  /** "first - last of total", always shown. */
  function RangeLabel(v: View): (r: (int, int, int))
    ensures r.0 == v.skip + 1 && r.2 == v.totalCount
    ensures r.1 <= v.totalCount && r.1 <= v.skip + |v.issues|
    ensures r.1 == v.totalCount || r.1 == v.skip + |v.issues|
  {
    (v.skip + 1, if v.skip + |v.issues| < v.totalCount then v.skip + |v.issues| else v.totalCount, v.totalCount)
  }

  /**
   * The paging buttons of the issue list: an enabled Prev moves back but not below 0, and
   * an enabled Next on a full page moves forward to an offset still inside the total.
   */
  lemma PagingStaysInRange(q: Query, v: View)
    requires 0 <= v.skip && v.limit > 0
    ensures !PrevDisabled(v) ==> 0 <= Normalise(PrevTarget(q, v), PageSize).skip < v.skip
    ensures PrevDisabled(v) ==> Normalise(PrevTarget(q, v), PageSize).skip == 0
    ensures !NextDisabled(v) && |v.issues| == v.limit ==> v.skip < Normalise(NextTarget(q, v), PageSize).skip < v.totalCount
  {
  }

  /** An issue that was on the page before a successful save is still there, at the same place, with its id unchanged unless the server changed it. */
  lemma SaveKeepsOrder(v: View, storage: Store, resp: Response<Issue>, i: int)
    requires v.editingId.Some? && BearerToken(storage).Some? && resp.Ok?
    requires 0 <= i < |v.issues| && v.issues[i].id != v.editingId.value
    ensures Update(v, storage, resp).view.issues[i] == v.issues[i]
  {
  }

  /** A successful delete of an issue that occurs once shortens the list by one but leaves the total as it was. */
  lemma DeleteLeavesTotal(v: View, id: int)
    requires CountId(v.issues, IssueId, id) == 1
    ensures |Delete(v, id, true, true).issues| == |v.issues| - 1
    ensures Delete(v, id, true, true).totalCount == v.totalCount
  {
    RemoveByIdLength(v.issues, IssueId, id);
  }

  /** An issue added with a fresh id and then deleted leaves the list and the total as before. */
  lemma AddThenDeleteRestores(v: View, issue: Issue)
    requires forall i :: 0 <= i < |v.issues| ==> v.issues[i].id != issue.id
    ensures var r := Delete(Add(v, issue), issue.id, true, true);
      r.issues == v.issues && r.totalCount == v.totalCount
  {
    RemoveSoleOccurrence(v.issues, issue, [], IssueId);
    assert v.issues + [issue] + [] == v.issues + [issue];
  }
}

=== FILE: js_numbers.dfy ===
/**
 * The two string-to-number conversions the client relies on:
 * `parseInt(s)` (a leading integer, used for `skip`/`limit`) and `Number(s)`
 * (the whole string, used to resolve ids in the active-filter chips).
 * Both yield `None` where JavaScript yields `NaN`.
 */
module JsNumbers {
  import opened Wrappers
  import opened Text

  /** Value of `c` as a digit in bases up to 36: `0`-`9`, then `a`/`A` = 10 through `z`/`Z` = 35. */
  function DigitValue(c: char): Option<nat> {
    if '0' <= c <= '9' then Some(c as int - '0' as int)
    else if 'a' <= c <= 'z' then Some(c as int - 'a' as int + 10)
    else if 'A' <= c <= 'Z' then Some(c as int - 'A' as int + 10)
    else None
  }

  predicate IsDigit(c: char, radix: nat) {
    DigitValue(c).Some? && DigitValue(c).value < radix
  }

  predicate AllDigits(s: string, radix: nat) {
    forall i :: 0 <= i < |s| ==> IsDigit(s[i], radix)
  }

  /** Length of the longest prefix of `s` made of digits in `radix`. */
  function DigitRun(s: string, radix: nat): (n: nat)
    ensures n <= |s| && AllDigits(s[..n], radix)
    ensures n < |s| ==> !IsDigit(s[n], radix)
    decreases |s|
  {
    if |s| > 0 && IsDigit(s[0], radix) then 1 + DigitRun(s[1..], radix) else 0
  }

  /** The number a digit string denotes in `radix`, most significant digit first. */
  function DigitsValue(s: string, radix: nat): nat
    requires AllDigits(s, radix)
    decreases |s|
  {
    if |s| == 0 then 0
    else DigitsValue(s[..|s| - 1], radix) * radix + DigitValue(s[|s| - 1]).value
  }

  /** Sign prefix handling shared by `parseInt` and `Number`: (negative?, rest). */
  function StripSign(t: string): (string, bool) {
    if |t| > 0 && (t[0] == '-' || t[0] == '+') then (t[1..], t[0] == '-') else (t, false)
  }

  function Signed(negative: bool, m: nat): int {
    if negative then -(m as int) else m
  }

  /**
   * `parseInt(s)` with no radix: skip leading whitespace, take an optional sign,
   * switch to base 16 after a `0x`/`0X` prefix, then read the longest run of digits;
   * `NaN` (here `None`) when that run is empty.
   */
  function ParseInt(s: string): Option<int> {
    var (u, negative) := StripSign(TrimStart(s));
    if HexPrefixed(u) then LeadingInteger(u[2..], 16, negative) else LeadingInteger(u, 10, negative)
  }

  /** Leading whitespace is skipped: a space in front never changes what `parseInt` reads. */
  lemma ParseIntIgnoresLeadingSpace(s: string)
    ensures ParseInt(" " + s) == ParseInt(s)
  {
  }

  predicate HexPrefixed(u: string) {
    |u| >= 2 && u[0] == '0' && (u[1] == 'x' || u[1] == 'X')
  }

  /** The value of the longest leading run of `radix` digits of `v`, signed; `None` when the run is empty. */
  function LeadingInteger(v: string, radix: nat, negative: bool): (r: Option<int>)
    ensures r.None? <==> DigitRun(v, radix) == 0
  {
    var n := DigitRun(v, radix);
    if n == 0 then None else Some(Signed(negative, DigitsValue(v[..n], radix)))
  }

  /** When the whole of `v` is digits, `parseInt` reads all of it. */
  lemma LeadingIntegerOfDigits(v: string, radix: nat, negative: bool)
    requires |v| > 0 && AllDigits(v, radix)
    ensures LeadingInteger(v, radix, negative) == Some(Signed(negative, DigitsValue(v, radix)))
  {
    DigitRunAll(v, radix);
    assert v[..|v|] == v;
  }

  function Pow10(k: nat): (p: nat)
    ensures p >= 1
  {
    if k == 0 then 1 else 10 * Pow10(k - 1)
  }

  /** `m * 10^scale` when that is a whole number. */
  function WholeValue(m: nat, scale: int): Option<nat> {
    if scale >= 0 then Some(m * Pow10(scale))
    else if m % Pow10(-scale) == 0 then Some(m / Pow10(-scale))
    else None
  }

  function RadixOfPrefix(c: char): Option<nat> {
    if c == 'x' || c == 'X' then Some(16)
    else if c == 'o' || c == 'O' then Some(8)
    else if c == 'b' || c == 'B' then Some(2)
    else None
  }

  /** An optional exponent `e`/`E`, sign and at least one digit, which must end the string. */
  function Exponent(s: string): Option<int> {
    if |s| == 0 then Some(0)
    else if s[0] != 'e' && s[0] != 'E' then None
    else
      var (d, negative) := StripSign(s[1..]);
      if |d| > 0 && AllDigits(d, 10) then Some(Signed(negative, DigitsValue(d, 10))) else None
  }

  lemma AllDigitsConcat(a: string, b: string, radix: nat)
    requires AllDigits(a, radix) && AllDigits(b, radix)
    ensures AllDigits(a + b, radix)
  {
    forall i | 0 <= i < |a + b| ensures IsDigit((a + b)[i], radix) {
      if i >= |a| {
        assert (a + b)[i] == b[i - |a|];
      }
    }
  }

  /**
   * An unsigned decimal literal — digits, optional `.` and fraction digits (at least one
   * digit in all), optional exponent — whose value is a whole number.
   */
  function UnsignedDecimal(u: string): Option<nat> {
    var a := DigitRun(u, 10);
    var whole := u[..a];
    var afterWhole := u[a..];
    var hasPoint := |afterWhole| > 0 && afterWhole[0] == '.';
    var afterPoint := if hasPoint then afterWhole[1..] else afterWhole;
    var f := if hasPoint then DigitRun(afterPoint, 10) else 0;
    var fraction := afterPoint[..f];
    if a + f == 0 then None
    else
      match Exponent(afterPoint[f..])
      case None => None
      case Some(e) =>
        AllDigitsConcat(whole, fraction, 10);
        WholeValue(DigitsValue(whole + fraction, 10), e - f)
  }

  /** A `0x`/`0o`/`0b` literal: the prefix then at least one digit of that base, and nothing else. */
  function PrefixedInteger(t: string): Option<int>
    requires |t| > 2 && RadixOfPrefix(t[1]).Some?
  {
    var radix := RadixOfPrefix(t[1]).value;
    if AllDigits(t[2..], radix) then Some(DigitsValue(t[2..], radix)) else None
  }

  /** An optionally signed decimal literal with a whole-number value. */
  function SignedDecimal(t: string): Option<int> {
    var (u, negative) := StripSign(t);
    match UnsignedDecimal(u)
    case None => None
    case Some(m) => Some(Signed(negative, m))
  }

  /**
   * `Number(s)` when its value is an integer: the trimmed string is empty (0), a
   * `0x`/`0o`/`0b` literal, or a signed decimal literal. `None` covers `NaN`,
   * `Infinity` and values with a fractional part.
   */
  function NumberOf(s: string): (r: Option<int>)
    ensures Blank(s) ==> r == Some(0)
  {
    TrimEmptyIffBlank(s);
    var t := Trim(s);
    if |t| == 0 then Some(0)
    else if |t| > 2 && t[0] == '0' && RadixOfPrefix(t[1]).Some? then PrefixedInteger(t)
    else SignedDecimal(t)
  }

  /** The digits `String(n)` prints for a natural number read back as that number. */
  lemma {:induction false} NatToStringValue(n: nat)
    ensures AllDigits(NatToString(n), 10)
    ensures DigitsValue(NatToString(n), 10) == n
    decreases n
  {
    var s := NatToString(n);
    if n >= 10 {
      NatToStringValue(n / 10);
      assert s[..|s| - 1] == NatToString(n / 10);
    }
  }

  lemma TrimStartNoop(s: string)
    requires |s| > 0 && !IsWhitespace(s[0])
    ensures TrimStart(s) == s
  {
  }

  lemma TrimNoop(s: string)
    requires |s| > 0 && !IsWhitespace(s[0]) && !IsWhitespace(s[|s| - 1])
    ensures Trim(s) == s
  {
  }

  lemma DigitRunAll(s: string, radix: nat)
    requires AllDigits(s, radix)
    ensures DigitRun(s, radix) == |s|
  {
  }

  /** A minus sign (or none) before decimal digits: nothing to trim, and the sign splits off. */
  lemma SignedDigitsShape(d: string, negative: bool)
    requires |d| > 0 && forall i :: 0 <= i < |d| ==> IsDecimalDigit(d[i])
    ensures var s := if negative then "-" + d else d;
      TrimStart(s) == s && Trim(s) == s && StripSign(s) == (d, negative)
  {
    var s := if negative then "-" + d else d;
    assert IsDecimalDigit(d[|d| - 1]);
    assert s[|s| - 1] == d[|d| - 1];
    assert !IsWhitespace(s[0]) by {
      if !negative { assert IsDecimalDigit(d[0]); }
    }
    TrimNoop(s);
    if negative {
      assert s[1..] == d;
    }
  }

  /** `parseInt` of a sign and a plain run of decimal digits (not a `0x` prefix) reads all the digits. */
  lemma ParseIntOfDigits(s: string, u: string, negative: bool)
    requires StripSign(TrimStart(s)) == (u, negative)
    requires |u| > 0 && AllDigits(u, 10)
    ensures ParseInt(s) == Some(Signed(negative, DigitsValue(u, 10)))
  {
    assert !HexPrefixed(u) by {
      if |u| >= 2 { assert IsDigit(u[1], 10); }
    }
    assert ParseInt(s) == LeadingInteger(u, 10, negative);
    LeadingIntegerOfDigits(u, 10, negative);
  }

  /** `parseInt(String(n)) === n`: the query value written for `skip`/`limit` reads back unchanged. */
  lemma ParseIntOfIntToString(n: int)
    ensures ParseInt(IntToString(n)) == Some(n)
  {
    var m: nat := if n < 0 then -n else n;
    NatToStringValue(m);
    SignedDigitsShape(NatToString(m), n < 0);
    ParseIntOfDigits(IntToString(n), NatToString(m), n < 0);
  }

  /** A plain run of decimal digits is a whole-number decimal literal with that value. */
  lemma UnsignedDecimalOfDigits(d: string)
    requires |d| > 0 && AllDigits(d, 10)
    ensures UnsignedDecimal(d) == Some(DigitsValue(d, 10))
  {
    DigitRunAll(d, 10);
    assert d[..|d|] == d;
    assert d + "" == d;
    assert d[|d|..] == "";
  }

  lemma DecimalNumberOf(s: string)
    requires Trim(s) == s && |s| > 0 && (s[0] != '0' || |s| <= 2)
    ensures NumberOf(s) == SignedDecimal(s)
  {
  }

  /** A sign and a plain run of decimal digits is a signed decimal literal with that value. */
  lemma SignedDecimalOfDigits(t: string, u: string, negative: bool)
    requires StripSign(t) == (u, negative)
    requires |u| > 0 && AllDigits(u, 10)
    ensures SignedDecimal(t) == Some(Signed(negative, DigitsValue(u, 10)))
  {
    UnsignedDecimalOfDigits(u);
  }

  /** `Number(String(n)) === n`: an id printed into the query resolves to the same id. */
  lemma NumberOfIntToString(n: int)
    ensures NumberOf(IntToString(n)) == Some(n)
  {
    var m: nat := if n < 0 then -n else n;
    var s := IntToString(n);
    NatToStringValue(m);
    SignedDigitsShape(NatToString(m), n < 0);
    assert s[0] != '0' || |s| <= 2 by {
      if n < 0 { assert s[0] == '-'; } else { assert s == NatToString(m); }
    }
    SignedDecimalOfDigits(s, NatToString(m), n < 0);
    DecimalNumberOf(s);
  }
}

=== FILE: lists.dfy ===
/**
 * The local list reducers the views apply after a server reply:
 * `prev.map(x => x.id === id ? updated : x)` and `prev.filter(x => x.id !== id)`.
 */
module Lists {

  /** Every element whose id is `id` replaced by `x`; all others kept in place. */
  function ReplaceById<T>(s: seq<T>, idOf: T -> int, id: int, x: T): (r: seq<T>)
    ensures |r| == |s|
    ensures forall i :: 0 <= i < |s| && idOf(s[i]) == id ==> r[i] == x
    ensures forall i :: 0 <= i < |s| && idOf(s[i]) != id ==> r[i] == s[i]
    decreases |s|
  {
    if |s| == 0 then []
    else [if idOf(s[0]) == id then x else s[0]] + ReplaceById(s[1..], idOf, id, x)
  }

  /** The elements whose id is not `id`, in their original order. */
  function RemoveById<T>(s: seq<T>, idOf: T -> int, id: int): (r: seq<T>)
    ensures |r| <= |s|
    ensures forall i :: 0 <= i < |r| ==> r[i] in s && idOf(r[i]) != id
    ensures forall i :: 0 <= i < |s| && idOf(s[i]) != id ==> s[i] in r
    decreases |s|
  {
    if |s| == 0 then []
    else if idOf(s[0]) == id then RemoveById(s[1..], idOf, id)
    else [s[0]] + RemoveById(s[1..], idOf, id)
  }

  /** How many elements carry the id `id`. */
  function CountId<T>(s: seq<T>, idOf: T -> int, id: int): nat
    decreases |s|
  {
    if |s| == 0 then 0 else (if idOf(s[0]) == id then 1 else 0) + CountId(s[1..], idOf, id)
  }

  /** Removal keeps relative order: it distributes over concatenation. */
  lemma {:induction false} RemoveByIdAppend<T>(a: seq<T>, b: seq<T>, idOf: T -> int, id: int)
    ensures RemoveById(a + b, idOf, id) == RemoveById(a, idOf, id) + RemoveById(b, idOf, id)
    decreases |a|
  {
    if |a| > 0 {
      assert (a + b)[1..] == a[1..] + b;
      RemoveByIdAppend(a[1..], b, idOf, id);
    } else {
      assert a + b == b;
    }
  }

  /** Removing an id nobody carries changes nothing. */
  lemma {:induction false} RemoveAbsentId<T>(s: seq<T>, idOf: T -> int, id: int)
    requires forall i :: 0 <= i < |s| ==> idOf(s[i]) != id
    ensures RemoveById(s, idOf, id) == s
    decreases |s|
  {
    if |s| > 0 {
      RemoveAbsentId(s[1..], idOf, id);
      assert s == [s[0]] + s[1..];
    }
  }

  /** Removal drops exactly the elements that carry the id. */
  lemma {:induction false} RemoveByIdLength<T>(s: seq<T>, idOf: T -> int, id: int)
    ensures |RemoveById(s, idOf, id)| == |s| - CountId(s, idOf, id)
    decreases |s|
  {
    if |s| > 0 {
      RemoveByIdLength(s[1..], idOf, id);
    }
  }

  /** Removal looks at the head and then at the rest. */
  lemma RemoveByIdCons<T>(h: T, t: seq<T>, idOf: T -> int, id: int)
    ensures RemoveById([h] + t, idOf, id) == if idOf(h) == id then RemoveById(t, idOf, id) else [h] + RemoveById(t, idOf, id)
  {
    assert ([h] + t)[1..] == t;
  }

  /** Splitting off the head of a non-empty prefix. */
  lemma SplitHead<T>(a: seq<T>, x: T, b: seq<T>)
    requires |a| > 0
    ensures a + [x] + b == [a[0]] + (a[1..] + [x] + b)
    ensures a + b == [a[0]] + (a[1..] + b)
  {
  }

  /** Removing the id of an element that occurs once cuts out just that element. */
  lemma {:induction false} RemoveSoleOccurrence<T>(a: seq<T>, x: T, b: seq<T>, idOf: T -> int)
    requires forall i :: 0 <= i < |a| ==> idOf(a[i]) != idOf(x)
    requires forall i :: 0 <= i < |b| ==> idOf(b[i]) != idOf(x)
    ensures RemoveById(a + [x] + b, idOf, idOf(x)) == a + b
    decreases |a|
  {
    var id := idOf(x);
    if |a| == 0 {
      assert a + [x] + b == [x] + b && a + b == b;
      RemoveByIdCons(x, b, idOf, id);
      RemoveAbsentId(b, idOf, id);
    } else {
      var h, rest := a[0], a[1..];
      assert forall i :: 0 <= i < |rest| ==> rest[i] == a[i + 1];
      SplitHead(a, x, b);
      var tail := rest + [x] + b;
      RemoveSoleOccurrence(rest, x, b, idOf);
      RemoveByIdCons(h, tail, idOf, id);
    }
  }

  /** Some element carries the id: `s.some(x => x.id === id)`. */
  predicate HasId<T>(s: seq<T>, idOf: T -> int, id: int) {
    exists i :: 0 <= i < |s| && idOf(s[i]) == id
  }

  /**
   * The selection toggle of the tag pickers: an element whose id is already selected is
   * deselected (every copy), any other is appended at the end.
   */
  function Toggle<T>(s: seq<T>, idOf: T -> int, x: T): (r: seq<T>)
    ensures HasId(r, idOf, idOf(x)) <==> !HasId(s, idOf, idOf(x))
    ensures !HasId(s, idOf, idOf(x)) ==> r == s + [x]
    ensures forall i :: 0 <= i < |s| && idOf(s[i]) != idOf(x) ==> s[i] in r
    ensures forall i :: 0 <= i < |r| && idOf(r[i]) != idOf(x) ==> r[i] in s
  {
    if HasId(s, idOf, idOf(x)) then RemoveById(s, idOf, idOf(x))
    else
      assert (s + [x])[|s|] == x;
      s + [x]
  }

  /** Toggling an unselected element twice gives back the selection. */
  lemma ToggleTwiceRestores<T>(s: seq<T>, idOf: T -> int, x: T)
    requires !HasId(s, idOf, idOf(x))
    ensures Toggle(Toggle(s, idOf, x), idOf, x) == s
  {
    var id := idOf(x);
    var once := s + [x];
    assert once[|s|] == x;
    assert HasId(once, idOf, id);
    RemoveAbsentId(s, idOf, id);
    assert [x][1..] == [];
    assert RemoveById([x], idOf, id) == [];
    RemoveByIdAppend(s, [x], idOf, id);
  }
}

=== FILE: profile.dfy ===
/**
 * The signed-in user's profile page: saving the account form (name and password change)
 * and the preview of the user's comments. The profile record is kept as its JSON object,
 * a map from field name to value, because a save merges the server's fields into it.
 */
module Profile {
  import opened Wrappers
  import opened Domain
  import opened Responses

  const PasswordsDontMatch: string := "Passwords don't match"
  const UpdateFailed: string := "Failed to update profile"
  const NameField: string := "name"
  const PreviewLength: nat := 100

  /** The loaded profile, as its JSON fields. */
  type Record = map<string, string>

  datatype Form = Form(name: string, password: string, confirmPassword: string)

  datatype View = View(
    profile: Option<Record>,
    form: Form,
    editing: bool,
    updateError: Option<string>,
    updateSuccess: bool)

  /** The request body: each field present only when it is to change. */
  datatype Payload = Payload(name: Option<string>, password: Option<string>)

  predicate EmptyPayload(p: Payload) {
    p.name.None? && p.password.None?
  }

  /** `formData.name !== profile?.name`: a missing profile or name always differs. */
  predicate NameChanged(v: View) {
    !(v.profile.Some? && NameField in v.profile.value && v.profile.value[NameField] == v.form.name)
  }

  /** The body `handleUpdateProfile` builds. */
  function PayloadOf(v: View): (p: Payload)
    ensures p.name.Some? <==> NameChanged(v)
    ensures p.name.Some? ==> p.name.value == v.form.name
    ensures p.password.Some? <==> v.form.password != ""
    ensures p.password.Some? ==> p.password.value == v.form.password
    ensures EmptyPayload(p) <==> !NameChanged(v) && v.form.password == ""
  {
    Payload(if NameChanged(v) then Some(v.form.name) else None,
            if v.form.password != "" then Some(v.form.password) else None)
  }

  /** `formData.password && formData.password !== formData.confirmPassword`. */
  predicate Mismatch(f: Form) {
    f.password != "" && f.password != f.confirmPassword
  }

  /** What happens before any request: nothing, a validation stop, or a payload to send. */
  datatype Step = Stop(view: View) | Send(view: View, payload: Payload)

  /**
   * The part of `handleUpdateProfile` before the request. Signed out: nothing changes.
   * Mismatched passwords: "Passwords don't match". Otherwise the banner and the success
   * flag are reset; an empty payload just leaves edit mode.
   */
  function Prepare(v: View, signedIn: bool): (r: Step)
    ensures !signedIn ==> r == Stop(v)
    ensures signedIn && Mismatch(v.form) ==> r == Stop(v.(updateError := Some(PasswordsDontMatch)))
    ensures signedIn && !Mismatch(v.form) && EmptyPayload(PayloadOf(v)) ==>
      r == Stop(v.(updateError := None, updateSuccess := false, editing := false))
    ensures r.Send? <==> signedIn && !Mismatch(v.form) && !EmptyPayload(PayloadOf(v))
    ensures r.Send? ==> r.view == v.(updateError := None, updateSuccess := false) && r.payload == PayloadOf(v)
  {
    if !signedIn then Stop(v)
    else if Mismatch(v.form) then Stop(v.(updateError := Some(PasswordsDontMatch)))
    else
      var cleared := v.(updateError := None, updateSuccess := false);
      var payload := PayloadOf(v);
      if EmptyPayload(payload) then Stop(cleared.(editing := false)) else Send(cleared, payload)
  }

  /**
   * The reply to the update request, up to the `updateUser` call: a non-2xx reply shows
   * the server's `error` or "Failed to update profile", a throw shows its message, and
   * both keep the profile and the form. Success merges the reply into the profile
   * (`{...prev, ...updated}`; no profile stays no profile), clears both password fields,
   * and reports success out of edit mode.
   */
  function Settle(v: View, resp: Response<Record>): (r: View)
    ensures resp.HttpErr? ==> r == v.(updateError := Some(ErrorField(resp.fields, "error", UpdateFailed)))
    ensures resp.Failed? ==> r == v.(updateError := Some(resp.reason))
    ensures resp.Ok? ==>
      && r.updateSuccess && !r.editing && r.updateError == v.updateError
      && r.form == Form(v.form.name, "", "")
      && (v.profile.None? <==> r.profile.None?)
      && (v.profile.Some? ==>
            && r.profile.value.Keys == v.profile.value.Keys + resp.body.Keys
            && (forall k :: k in resp.body ==> r.profile.value[k] == resp.body[k])
            && (forall k :: k in v.profile.value && k !in resp.body ==> r.profile.value[k] == v.profile.value[k]))
  {
    match resp
    case HttpErr(fields) => v.(updateError := Some(ErrorField(fields, "error", UpdateFailed)))
    case Failed(reason) => v.(updateError := Some(reason))
    case Ok(updated) =>
      var merged := if v.profile.Some? then Some(v.profile.value + updated) else None;
      v.(profile := merged, form := v.form.(password := "", confirmPassword := ""), updateSuccess := true, editing := false)
  }

  /**
   * `handleUpdateProfile` as written. Its last step calls `updateUser`, which the auth
   * context does not provide, so on every successful save the call throws and the catch
   * block puts the engine's message (`thrown`) into `updateError`, after the success
   * state was already set. Returns the view and the payload sent, if any.
   */
  function SaveProfileAsWritten(v: View, signedIn: bool, resp: Response<Record>, thrown: string): (r: (View, Option<Payload>))
    ensures r.1.Some? <==> Prepare(v, signedIn).Send?
    ensures r.1.Some? ==> r.1.value == PayloadOf(v)
    ensures r.1.None? ==> r.0 == Prepare(v, signedIn).view
    ensures r.1.Some? && !resp.Ok? ==> r.0 == Settle(Prepare(v, signedIn).view, resp)
    ensures r.1.Some? && resp.Ok? ==> r.0.updateSuccess && r.0.updateError == Some(thrown)
  {
    match Prepare(v, signedIn)
    case Stop(w) => (w, None)
    case Send(w, payload) =>
      var settled := Settle(w, resp);
      if resp.Ok? then (settled.(updateError := Some(thrown)), Some(payload)) else (settled, Some(payload))
  }

  /**
   * The defect: a save the server accepts, here one that changes the password, reports
   * success and an error at once.
   */
  lemma AcceptedSaveAlsoReportsError(v: View, updated: Record, thrown: string)
    requires !Mismatch(v.form) && v.form.password != ""
    ensures var r := SaveProfileAsWritten(v, true, Ok(updated), thrown);
      r.1.Some? && r.0.updateSuccess && r.0.updateError.Some?
  {
  }

  /**
   * `handleUpdateProfile` without the failing `updateUser` call: the same request and
   * the same view changes, and an accepted save leaves the banner empty.
   */
  function SaveProfile(v: View, signedIn: bool, resp: Response<Record>): (r: (View, Option<Payload>))
    ensures r.1.Some? <==> Prepare(v, signedIn).Send?
    ensures r.1.Some? ==> r.1.value == PayloadOf(v)
    ensures r.1.None? ==> r.0 == Prepare(v, signedIn).view
    ensures r.1.Some? ==> r.0 == Settle(Prepare(v, signedIn).view, resp)
    ensures r.1.Some? && resp.Ok? ==> r.0.updateSuccess && r.0.updateError.None?
  {
    match Prepare(v, signedIn)
    case Stop(w) => (w, None)
    case Send(w, payload) => (Settle(w, resp), Some(payload))
  }

  /** With the fix, a save started without a success banner never ends with both banners. */
  lemma SuccessExcludesError(v: View, signedIn: bool, resp: Response<Record>)
    requires !v.updateSuccess
    ensures var r := SaveProfile(v, signedIn, resp).0;
      r.updateSuccess ==> r.updateError.None?
  {
  }

  /**
   * Even with the fix, both banners show only when the success banner is left over from
   * an earlier save and the new attempt stops at the password check.
   */
  lemma BothBannersOnlyFromStaleSuccess(v: View, signedIn: bool, resp: Response<Record>)
    ensures var r := SaveProfile(v, signedIn, resp).0;
      r.updateSuccess && r.updateError.Some? ==>
        && v.updateSuccess
        && ((signedIn && Mismatch(v.form) && r.updateError == Some(PasswordsDontMatch))
            || (!signedIn && r == v))
  {
  }

  /** The "Edit Profile" button: only edit mode changes, so an earlier banner stays. */
  function StartEditing(v: View): (r: View)
    ensures r.editing && r.(editing := v.editing) == v
  {
    v.(editing := true)
  }

  /** The name the form falls back to; a record without a name gives the empty string. */
  function StoredName(rec: Record): string {
    if NameField in rec then rec[NameField] else ""
  }

  /**
   * The "Cancel" button, shown only once a profile is loaded: edit mode ends, the name is
   * reset to the stored one, both passwords are emptied, and both banners are cleared.
   */
  function CancelEditing(v: View): (r: View)
    requires v.profile.Some?
    ensures !r.editing && r.updateError.None? && !r.updateSuccess
    ensures r.form == Form(StoredName(v.profile.value), "", "")
    ensures r.profile == v.profile
    ensures !NameChanged(r) <==> NameField in v.profile.value
  {
    v.(editing := false, form := Form(StoredName(v.profile.value), "", ""), updateError := None, updateSuccess := false)
  }

  /**
   * The stale banner: after an accepted save, "Edit Profile" and a mismatched confirmation
   * show "Passwords don't match" beside "Profile updated successfully!", fix or no fix.
   */
  lemma StaleSuccessBesideMismatch(v: View, updated: Record, form: Form)
    requires Prepare(v, true).Send?
    requires Mismatch(form)
    ensures var saved := SaveProfile(v, true, Ok(updated)).0;
      var retried := SaveProfile(StartEditing(saved).(form := form), true, Ok(updated)).0;
      retried.updateSuccess && retried.updateError == Some(PasswordsDontMatch) && retried.editing
  {
  }

  /** Cancelling clears the banners, so the next save starts without a stale success. */
  lemma CancelClearsStaleSuccess(v: View, signedIn: bool, resp: Response<Record>)
    requires v.profile.Some?
    ensures var r := SaveProfile(StartEditing(CancelEditing(v)), signedIn, resp).0;
      r.updateSuccess ==> r.updateError.None?
  {
  }

  /** Both versions send the same request and agree on everything except the banner. */
  lemma FixChangesOnlyTheBanner(v: View, signedIn: bool, resp: Response<Record>, thrown: string)
    ensures var fixed := SaveProfile(v, signedIn, resp);
      var written := SaveProfileAsWritten(v, signedIn, resp, thrown);
      fixed.1 == written.1 && fixed.0.(updateError := None) == written.0.(updateError := None)
    ensures !resp.Ok? ==> SaveProfile(v, signedIn, resp) == SaveProfileAsWritten(v, signedIn, resp, thrown)
  {
  }

  /**
   * The preview of a comment on the profile: more than 100 characters become the first
   * 100 followed by "..."; shorter content is shown whole.
   */
  function Preview(content: string): (r: string)
    ensures |content| <= PreviewLength ==> r == content
    ensures |content| > PreviewLength ==> |r| == PreviewLength + 3 && r[..PreviewLength] == content[..PreviewLength] && r[PreviewLength..] == "..."
    ensures |r| <= PreviewLength + 3
  {
    if |content| > PreviewLength then content[..PreviewLength] + "..." else content
  }

  /** A preview is always a prefix of the content, possibly followed by the ellipsis. */
  lemma PreviewIsPrefix(content: string)
    ensures var r := Preview(content);
      exists n :: 0 <= n <= |content| && (r == content[..n] || r == content[..n] + "...")
  {
    if |content| <= PreviewLength {
      assert Preview(content) == content[..|content|];
    } else {
      assert Preview(content) == content[..PreviewLength] + "...";
    }
  }
}

=== FILE: query_state.dfy ===
/**
 * The URL query of a collection view as a string map (`Object.fromEntries(searchParams)`)
 * and the rules both paginated views share for reading and rewriting it.
 */
module QueryState {
  import opened Wrappers
  import opened Text
  import opened JsNumbers

  type Query = map<string, string>

  const SkipKey: string := "skip"
  const LimitKey: string := "limit"

  /** A navigation target: a path and the query to put after `?` (none when empty). */
  datatype Location = Location(path: string, query: Query)

  /** The pagination window a view shows. */
  datatype Window = Window(skip: int, limit: int)

  /**
   * `typeof q[key] === 'string' ? parseInt(q[key]) : fallback`, with `NaN` replaced
   * by `fallback`: the leading integer of the value when there is one.
   */
  function ReadInt(q: Query, key: string, fallback: int): (n: int)
    ensures key in q && ParseInt(q[key]).Some? ==> n == ParseInt(q[key]).value
    ensures key !in q || ParseInt(q[key]).None? ==> n == fallback
  {
    if key in q then ParseInt(q[key]).GetOr(fallback) else fallback
  }

  /** The window the query asks for: `skip` defaults to 0 and `limit` to `defaultLimit`; no clamping. */
  function Normalise(q: Query, defaultLimit: int): Window {
    Window(ReadInt(q, SkipKey, 0), ReadInt(q, LimitKey, defaultLimit))
  }

  /** `q` with `skip` and `limit` set to the given strings and every other key kept. */
  function PutWindow(q: Query, skip: string, limit: string): (r: Query)
    ensures r.Keys == q.Keys + {SkipKey, LimitKey}
    ensures r[SkipKey] == skip && r[LimitKey] == limit
    ensures forall k :: k in q && k != SkipKey && k != LimitKey ==> r[k] == q[k]
  {
    q[SkipKey := skip][LimitKey := limit]
  }

  /** `q` with a window written into it as `String(skip)` and `String(limit)`. */
  function WriteWindow(q: Query, w: Window): (r: Query)
    ensures r.Keys == q.Keys + {SkipKey, LimitKey}
    ensures forall k :: k in q && k != SkipKey && k != LimitKey ==> r[k] == q[k]
    ensures r[SkipKey] == IntToString(w.skip) && r[LimitKey] == IntToString(w.limit)
    ensures ParseInt(r[SkipKey]) == Some(w.skip) && ParseInt(r[LimitKey]) == Some(w.limit)
  {
    ParseIntOfIntToString(w.skip);
    ParseIntOfIntToString(w.limit);
    PutWindow(q, IntToString(w.skip), IntToString(w.limit))
  }

  /**
   * The query sent to the server: every URL key and value, with `skip` and `limit`
   * overwritten by the normalised numbers written in decimal.
   */
  function FetchQuery(q: Query, defaultLimit: int): (r: Query)
    ensures r.Keys == q.Keys + {SkipKey, LimitKey}
    ensures forall k :: k in q && k != SkipKey && k != LimitKey ==> r[k] == q[k]
    ensures r[SkipKey] == IntToString(Normalise(q, defaultLimit).skip)
    ensures r[LimitKey] == IntToString(Normalise(q, defaultLimit).limit)
    ensures ParseInt(r[SkipKey]) == Some(Normalise(q, defaultLimit).skip)
    ensures ParseInt(r[LimitKey]) == Some(Normalise(q, defaultLimit).limit)
  {
    WriteWindow(q, Normalise(q, defaultLimit))
  }

  /** Reading the fetch query back gives the same window: encoding then decoding is the identity. */
  lemma FetchQueryNormalises(q: Query, defaultLimit: int)
    ensures Normalise(FetchQuery(q, defaultLimit), defaultLimit) == Normalise(q, defaultLimit)
  {
  }

  /** Writing the same window a second time changes nothing. */
  lemma WriteWindowTwice(q: Query, w: Window)
    ensures WriteWindow(WriteWindow(q, w), w) == WriteWindow(q, w)
  {
  }

  /** A query that already carries a written window is its own fetch query. */
  lemma FetchOfWrittenWindow(q: Query, w: Window, defaultLimit: int)
    ensures FetchQuery(WriteWindow(q, w), defaultLimit) == WriteWindow(q, w)
  {
    WrittenWindowReadsBack(q, w, defaultLimit);
    WriteWindowTwice(q, w);
  }

  /** Building the fetch query twice changes nothing further. */
  lemma FetchQueryIdempotent(q: Query, defaultLimit: int)
    ensures FetchQuery(FetchQuery(q, defaultLimit), defaultLimit) == FetchQuery(q, defaultLimit)
  {
    FetchOfWrittenWindow(q, Normalise(q, defaultLimit), defaultLimit);
  }

  /** `{...query, ...patch}`: the patch's keys win, every other key is kept. */
  function Overlay(q: Query, patch: Query): (r: Query)
    ensures r.Keys == q.Keys + patch.Keys
    ensures forall k :: k in patch ==> r[k] == patch[k]
    ensures forall k :: k in q && k !in patch ==> r[k] == q[k]
  {
    q + patch
  }

  /**
   * A filter input's `onChange`: set `key` to the new value when it is non-empty,
   * delete it when empty, and always reset `skip` to "0".
   */
  function SetFilter(q: Query, key: string, value: string): (r: Query)
    requires key != SkipKey
    ensures SkipKey in r && r[SkipKey] == "0"
    ensures value != "" ==> key in r && r[key] == value
    ensures value == "" ==> key !in r
    ensures forall k :: k != key && k != SkipKey ==> (k in r <==> k in q)
    ensures forall k :: k in q && k != key && k != SkipKey ==> r[k] == q[k]
  {
    var edited := if value != "" then q[key := value] else q - {key};
    edited[SkipKey := "0"]
  }

  /** Every filter edit sends the view back to its first page. */
  lemma SetFilterResetsSkip(q: Query, key: string, value: string, defaultLimit: int)
    requires key != SkipKey
    ensures Normalise(SetFilter(q, key, value), defaultLimit).skip == 0
  {
    ParseIntOfIntToString(0);
  }

  /** A query whose `skip` and `limit` were both written in decimal reads back as that window. */
  lemma WrittenWindowReadsBack(q: Query, w: Window, defaultLimit: int)
    ensures Normalise(WriteWindow(q, w), defaultLimit) == w
  {
  }

  /** Moving to another page through `Overlay` with only `skip` leaves every filter as it was. */
  lemma PagingKeepsFilters(q: Query, skip: int)
    ensures forall k :: k != SkipKey ==> (k in Overlay(q, map[SkipKey := IntToString(skip)]) <==> k in q)
    ensures forall k :: k in q && k != SkipKey ==> Overlay(q, map[SkipKey := IntToString(skip)])[k] == q[k]
    ensures Normalise(Overlay(q, map[SkipKey := IntToString(skip)]), 0).skip == skip
  {
    ParseIntOfIntToString(skip);
  }
}

=== FILE: responses.dfy ===
/** The server responses a handler can observe, as one sum type. */
module Responses {

  /**
   * `Ok(body)`: `response.ok` and the JSON body parsed.
   * `HttpErr(fields)`: a non-2xx status whose JSON body has these string fields.
   * `Failed(reason)`: the request rejected or the body was not JSON; `reason` is the
   * exception's message.
   */
  datatype Response<T> = Ok(body: T) | HttpErr(fields: map<string, string>) | Failed(reason: string)

  /**
   * What a list fetch that stores `response.json()` without looking at `response.ok`
   * leaves in its state: the served value, or, after a non-2xx reply, the error body in
   * place of the list.
   */
  datatype Loaded<T> = Shown(value: T) | Broken(body: map<string, string>)

  /** `data.<key> || fallback`: the server's message when it is a non-empty string. */
  function ErrorField(fields: map<string, string>, key: string, fallback: string): (msg: string)
    ensures key in fields && fields[key] != "" ==> msg == fields[key]
    ensures key !in fields || fields[key] == "" ==> msg == fallback
  {
    if key in fields && fields[key] != "" then fields[key] else fallback
  }
}

=== FILE: session.dfy ===
/**
 * The session store: the signed-in user, the bearer token and the role, and the
 * two `localStorage` keys that mirror them. React state updates and effects become
 * explicit functions; the JSON codec of the stored record is a pair of parameters.
 */
module Session {
  import opened Wrappers
  import opened Domain
  import opened Storage

  /** The key holding the JSON record `{user, token, role}`. */
  const AuthKey: string := "auth"

  const OutsideProviderMessage: string := "useAuth must be used within an AuthProvider"

  /** The stored record after `JSON.parse`, each field read with `|| null`. */
  datatype AuthRecord = AuthRecord(user: Option<User>, token: Option<string>, role: Option<string>)

  datatype State = State(user: Option<User>, token: Option<string>, role: Option<string>)

  const Anonymous: State := State(None, None, None)

  /** A string JavaScript treats as true: present and non-empty. */
  predicate Truthy(s: Option<string>) {
    s.Some? && s.value != ""
  }

  /** `user && token`: the condition under which the persist effect writes storage. */
  predicate Authenticated(s: State) {
    s.user.Some? && Truthy(s.token)
  }

  /** The record the persist effect writes: the role is always the user's own role. */
  function RecordOf(s: State): AuthRecord
    requires s.user.Some?
  {
    AuthRecord(s.user, s.token, Some(s.user.value.role))
  }

  /**
   * The persistence invariant: an authenticated state is mirrored in both keys,
   * any other state leaves neither key behind.
   */
  predicate Persisted(s: State, st: Store, encode: AuthRecord -> string) {
    if Authenticated(s) then
      && AuthKey in st && st[AuthKey] == encode(RecordOf(s))
      && AccessTokenKey in st && st[AccessTokenKey] == s.token.value
    else
      AuthKey !in st && AccessTokenKey !in st
  }

  /** `login(user, token)`: all three fields set together, the role taken from the user. */
  function Login(u: User, t: string): (s: State)
    ensures s.user == Some(u) && s.token == Some(t) && s.role == Some(u.role)
    ensures t != "" <==> Authenticated(s)
  {
    State(Some(u), Some(t), Some(u.role))
  }

  /** `logout()`: all three fields cleared and both keys removed; other keys untouched. */
  function Logout(st: Store): (r: (State, Store))
    ensures r.0 == Anonymous
    ensures r.1.Keys == st.Keys - {AuthKey, AccessTokenKey}
    ensures forall k :: k in r.1 ==> r.1[k] == st[k]
  {
    (Anonymous, st - {AuthKey, AccessTokenKey})
  }

  /** The persist effect, run after every change of user, token or role. */
  function Persist(s: State, st: Store, encode: AuthRecord -> string): (r: Store)
    ensures Persisted(s, r, encode)
    ensures forall k :: k != AuthKey && k != AccessTokenKey ==> (k in r <==> k in st)
    ensures forall k :: k in st && k != AuthKey && k != AccessTokenKey ==> r[k] == st[k]
  {
    if Authenticated(s) then st[AuthKey := encode(RecordOf(s))][AccessTokenKey := s.token.value]
    else st - {AuthKey, AccessTokenKey}
  }

  /**
   * The state read back from a parsed record: user and token independently (a falsy
   * token becomes null), the role from the record, else the user's role, else null.
   */
  function FromRecord(rec: AuthRecord): (s: State)
    ensures s.user == rec.user
    ensures Truthy(rec.token) ==> s.token == rec.token
    ensures !Truthy(rec.token) ==> s.token.None?
    ensures Truthy(rec.role) ==> s.role == rec.role
    ensures !Truthy(rec.role) && rec.user.Some? ==> s.role == Some(rec.user.value.role)
    ensures !Truthy(rec.role) && rec.user.None? ==> s.role.None?
  {
    State(
      rec.user,
      if Truthy(rec.token) then rec.token else None,
      if Truthy(rec.role) then rec.role else if rec.user.Some? then Some(rec.user.value.role) else None)
  }

  /**
   * The restore effect on mount: a missing or empty "auth" value leaves the session
   * anonymous; an unparsable one is removed; a parsed one is read by `FromRecord`.
   */
  function Restore(st: Store, decode: string -> Option<AuthRecord>): (r: (State, Store))
    ensures AuthKey !in st || st[AuthKey] == "" ==> r == (Anonymous, st)
    ensures AuthKey in st && st[AuthKey] != "" && decode(st[AuthKey]).None? ==>
      r == (Anonymous, st - {AuthKey})
    ensures AuthKey in st && st[AuthKey] != "" && decode(st[AuthKey]).Some? ==>
      r == (FromRecord(decode(st[AuthKey]).value), st)
  {
    if AuthKey in st && st[AuthKey] != "" then
      match decode(st[AuthKey])
      case None => (Anonymous, st - {AuthKey})
      case Some(rec) => (FromRecord(rec), st)
    else (Anonymous, st)
  }

  /** Mounting the provider: restore, then the persist effect on the restored state. */
  function Mount(st: Store, encode: AuthRecord -> string, decode: string -> Option<AuthRecord>): (r: (State, Store))
    ensures Persisted(r.0, r.1, encode)
    ensures r.0 == Restore(st, decode).0
  {
    var (s, st1) := Restore(st, decode);
    (s, Persist(s, st1, encode))
  }

  /** `useAuth()`: the context inside a provider, an error outside one. */
  function UseAuth<C>(ctx: Option<C>): (r: Result<C, string>)
    ensures ctx.Some? <==> r.Success?
    ensures r.Success? ==> r.value == ctx.value
    ensures r.Failure? ==> r.error == OutsideProviderMessage
  {
    match ctx
    case Some(c) => Success(c)
    case None => Failure(OutsideProviderMessage)
  }

  /**
   * What `JSON.stringify` and `JSON.parse` guarantee of each other for the stored record:
   * the text is never empty and parses back to the same record.
   */
  ghost predicate CodecRoundTrips(encode: AuthRecord -> string, decode: string -> Option<AuthRecord>) {
    forall rec :: encode(rec) != "" && decode(encode(rec)) == Some(rec)
  }

  /** After a login with a non-empty token is persisted, the gateway signs requests with that token. */
  lemma LoginSignsRequests(u: User, t: string, st: Store, encode: AuthRecord -> string)
    requires t != ""
    ensures BearerToken(Persist(Login(u, t), st, encode)) == Some(t)
    ensures Persist(Login(u, t), st, encode)[AuthKey] == encode(AuthRecord(Some(u), Some(t), Some(u.role)))
  {
  }

  /** After logout no request carries a bearer token. */
  lemma LogoutUnsignsRequests(st: Store)
    ensures BearerToken(Logout(st).1).None?
  {
  }

  /**
   * With a codec that round-trips, restoring what was persisted gives back the session,
   * except that the role is normalised to the user's own role.
   */
  lemma {:induction false} RestorePersisted(s: State, st: Store, encode: AuthRecord -> string, decode: string -> Option<AuthRecord>)
    requires CodecRoundTrips(encode, decode)
    requires Authenticated(s)
    ensures Restore(Persist(s, st, encode), decode).0 == s.(role := Some(s.user.value.role))
  {
    var st1 := Persist(s, st, encode);
    var rec := RecordOf(s);
    assert st1[AuthKey] == encode(rec);
    assert decode(st1[AuthKey]) == Some(rec) && st1[AuthKey] != "";
  }

  /** A persisted session whose role already is the user's role survives a reload unchanged. */
  lemma ReloadKeepsSession(s: State, st: Store, encode: AuthRecord -> string, decode: string -> Option<AuthRecord>)
    requires CodecRoundTrips(encode, decode)
    requires Authenticated(s) && s.role == Some(s.user.value.role)
    ensures Mount(Persist(s, st, encode), encode, decode).0 == s
  {
    RestorePersisted(s, st, encode, decode);
  }

  /** Unparsable stored JSON is discarded and the session stays anonymous. */
  lemma CorruptRecordDiscarded(st: Store, encode: AuthRecord -> string, decode: string -> Option<AuthRecord>)
    requires AuthKey in st && st[AuthKey] != "" && decode(st[AuthKey]).None?
    ensures Mount(st, encode, decode).0 == Anonymous
    ensures AuthKey !in Mount(st, encode, decode).1 && AccessTokenKey !in Mount(st, encode, decode).1
  {
  }

  /**
   * A stored user without a token is restored into memory but not written back:
   * both keys end up removed while `user` stays set.
   */
  lemma UserWithoutTokenNotPersisted(st: Store, encode: AuthRecord -> string, decode: string -> Option<AuthRecord>)
    requires AuthKey in st && st[AuthKey] != ""
    requires decode(st[AuthKey]).Some? && decode(st[AuthKey]).value.user.Some?
    requires !Truthy(decode(st[AuthKey]).value.token)
    ensures Mount(st, encode, decode).0.user.Some?
    ensures Mount(st, encode, decode).0.token.None?
    ensures AuthKey !in Mount(st, encode, decode).1 && AccessTokenKey !in Mount(st, encode, decode).1
  {
  }
}

=== FILE: storage.dfy ===
/** The browser's `localStorage`, modelled as a string-to-string map. */
module Storage {
  import opened Wrappers

  type Store = map<string, string>

  /** The key under which the raw bearer token is kept for request signing. */
  const AccessTokenKey: string := "access_token"

  /**
   * `localStorage.getItem("access_token")` when it is truthy: present and non-empty.
   * Every guard in the client of the form `if (!token)` or `if (token)` reads it this way.
   */
  function BearerToken(st: Store): (t: Option<string>)
    ensures t.Some? <==> AccessTokenKey in st && st[AccessTokenKey] != ""
    ensures t.Some? ==> t.value == st[AccessTokenKey] && t.value != ""
  {
    if AccessTokenKey in st && st[AccessTokenKey] != "" then Some(st[AccessTokenKey]) else None
  }
}

=== FILE: tags_panel.dfy ===
/**
 * The admin panel that manages tags: like the status and priority panels, but a tag has
 * a colour as well as a name, and deletion goes through a confirmation dialog.
 */
module TagsPanel {
  import opened Wrappers
  import opened Text
  import opened Domain
  import opened Lists
  import opened Responses
  import Taxonomy

  const DefaultColor: string := "#3B82F6"
  const NameAndColorRequired: string := "Name and color are required"
  const TagNoun: string := "tag"

  /** The two fields of the add form and of the inline edit form. */
  datatype Form = Form(name: string, color: string)

  /** The form is usable when neither field is blank. */
  predicate Filled(f: Form) {
    !Blank(f.name) && !Blank(f.color)
  }

  datatype Panel = Panel(
    items: seq<Tag>,
    loading: bool,
    error: Option<string>,
    newTag: Form,
    editing: Option<int>,
    editForm: Form,
    deleteTarget: Option<Tag>,
    dialogOpen: bool)

  /** The state on mount: the add form starts with the default colour, the edit form empty. */
  function Initial(): (p: Panel)
    ensures p.items == [] && p.loading && p.error.None?
    ensures p.newTag == Form("", DefaultColor) && !Filled(p.newTag)
    ensures p.editing.None? && p.editForm == Form("", "")
    ensures p.deleteTarget.None? && !p.dialogOpen
  {
    Panel([], true, None, Form("", DefaultColor), None, Form("", ""), None, false)
  }

  datatype Outcome = Outcome(panel: Panel, sent: bool)

  /** `fetchTags`: as the other panels' fetch, with the tag messages. */
  function Load(p: Panel, resp: Response<seq<Tag>>): (r: Panel)
    ensures !r.loading
    ensures resp.Ok? ==> r.items == resp.body && r.error == p.error
    ensures resp.HttpErr? ==> r.items == p.items && r.error == Some("Failed to fetch tags")
    ensures resp.Failed? ==> r.items == p.items && r.error == Some("Error fetching tags")
  {
    match resp
    case Ok(tags) => p.(items := tags, loading := false)
    case HttpErr(_) => p.(error := Some("Failed to fetch tags"), loading := false)
    case Failed(_) => p.(error := Some("Error fetching tags"), loading := false)
  }

  /**
   * `handleCreateTag`: a blank name or colour only sets the validation message; otherwise
   * a created tag is appended and the form goes back to an empty name with the default
   * colour; a failure keeps list and form.
   */
  function Create(p: Panel, resp: Response<Tag>): (r: Outcome)
    ensures !Filled(p.newTag) ==> !r.sent && r.panel == p.(error := Some(NameAndColorRequired))
    ensures Filled(p.newTag) ==> r.sent
    ensures Filled(p.newTag) && resp.Ok? ==>
      r.panel == p.(items := p.items + [resp.body], newTag := Form("", DefaultColor), error := None)
    ensures Filled(p.newTag) && !resp.Ok? ==>
      r.panel == p.(error := Some(Taxonomy.MutationError(resp, "create", "creating", TagNoun)))
  {
    TrimEmptyIffBlank(p.newTag.name);
    TrimEmptyIffBlank(p.newTag.color);
    if Trim(p.newTag.name) == "" || Trim(p.newTag.color) == "" then
      Outcome(p.(error := Some(NameAndColorRequired)), false)
    else
      match resp
      case Ok(created) =>
        Outcome(p.(items := p.items + [created], newTag := Form("", DefaultColor), error := None), true)
      case _ => Outcome(p.(error := Some(Taxonomy.MutationError(resp, "create", "creating", TagNoun))), true)
  }

  /** `startEditing`: the tag's id is being edited; the form holds its name and colour. */
  function StartEditing(p: Panel, t: Tag): (r: Panel)
    ensures r.editing == Some(t.id) && r.editForm == Form(t.name, t.color)
    ensures r.items == p.items && r.newTag == p.newTag
    ensures r == p.(editing := Some(t.id), editForm := Form(t.name, t.color))
  {
    p.(editing := Some(t.id), editForm := Form(t.name, t.color))
  }

  /** `cancelEditing`: no edit and both edit fields empty. */
  function CancelEditing(p: Panel): (r: Panel)
    ensures r.editing.None? && r.editForm == Form("", "")
    ensures r.items == p.items && r.newTag == p.newTag
    ensures r == p.(editing := None, editForm := Form("", ""))
  {
    p.(editing := None, editForm := Form("", ""))
  }

  /**
   * `handleUpdateTag(id)`: validation as for create; a success replaces every tag with
   * that id and closes the edit; a failure keeps the edit open.
   */
  function Update(p: Panel, id: int, resp: Response<Tag>): (r: Outcome)
    ensures !Filled(p.editForm) ==> !r.sent && r.panel == p.(error := Some(NameAndColorRequired))
    ensures Filled(p.editForm) ==> r.sent
    ensures Filled(p.editForm) && resp.Ok? ==>
      && |r.panel.items| == |p.items|
      && (forall i :: 0 <= i < |p.items| && TagId(p.items[i]) == id ==> r.panel.items[i] == resp.body)
      && (forall i :: 0 <= i < |p.items| && TagId(p.items[i]) != id ==> r.panel.items[i] == p.items[i])
      && r.panel.editing.None? && r.panel.editForm == Form("", "") && r.panel.error.None?
    ensures Filled(p.editForm) && resp.Ok? ==>
      r.panel == p.(items := ReplaceById(p.items, TagId, id, resp.body), editing := None, editForm := Form("", ""), error := None)
    ensures Filled(p.editForm) && !resp.Ok? ==>
      r.panel == p.(error := Some(Taxonomy.MutationError(resp, "update", "updating", TagNoun)))
  {
    TrimEmptyIffBlank(p.editForm.name);
    TrimEmptyIffBlank(p.editForm.color);
    if Trim(p.editForm.name) == "" || Trim(p.editForm.color) == "" then
      Outcome(p.(error := Some(NameAndColorRequired)), false)
    else
      match resp
      case Ok(updated) =>
        var items := ReplaceById(p.items, TagId, id, updated);
        Outcome(p.(items := items, editing := None, editForm := Form("", ""), error := None), true)
      case _ => Outcome(p.(error := Some(Taxonomy.MutationError(resp, "update", "updating", TagNoun))), true)
  }

  /** `handleDeleteTag`: remember the tag and open the dialog; nothing is sent. */
  function RequestDelete(p: Panel, t: Tag): (r: Panel)
    ensures r.deleteTarget == Some(t) && r.dialogOpen
    ensures r.items == p.items && r.error == p.error
    ensures r == p.(deleteTarget := Some(t), dialogOpen := true)
  {
    p.(deleteTarget := Some(t), dialogOpen := true)
  }

  /**
   * The dialog's confirm button: `confirmDeleteTag` runs, then the dialog closes.
   * Without a target nothing is sent; a success drops every tag with the target's id;
   * a failure shows its message. The target itself stays recorded.
   */
  function ConfirmDelete(p: Panel, resp: Response<()>): (r: Outcome)
    ensures !r.panel.dialogOpen && r.panel.deleteTarget == p.deleteTarget
    ensures p.deleteTarget.None? ==> r == Outcome(p.(dialogOpen := false), false)
    ensures p.deleteTarget.Some? ==> r.sent
    ensures p.deleteTarget.Some? && resp.Ok? ==>
      && (forall i :: 0 <= i < |r.panel.items| ==> r.panel.items[i] in p.items && r.panel.items[i].id != p.deleteTarget.value.id)
      && (forall i :: 0 <= i < |p.items| && p.items[i].id != p.deleteTarget.value.id ==> p.items[i] in r.panel.items)
      && r.panel.error.None?
    ensures p.deleteTarget.Some? && resp.Ok? ==>
      r.panel == p.(items := RemoveById(p.items, TagId, p.deleteTarget.value.id), error := None, dialogOpen := false)
    ensures p.deleteTarget.Some? && !resp.Ok? ==>
      r.panel == p.(error := Some(Taxonomy.MutationError(resp, "delete", "deleting", TagNoun)), dialogOpen := false)
  {
    match p.deleteTarget
    case None => Outcome(p.(dialogOpen := false), false)
    case Some(target) =>
      if resp.Ok? then
        Outcome(p.(items := RemoveById(p.items, TagId, target.id), error := None, dialogOpen := false), true)
      else
        Outcome(p.(error := Some(Taxonomy.MutationError(resp, "delete", "deleting", TagNoun)), dialogOpen := false), true)
  }

  /** The dialog's cancel button or a dismissal: it closes and nothing is sent. */
  function DismissDialog(p: Panel): (r: Panel)
    ensures !r.dialogOpen && r.items == p.items && r.deleteTarget == p.deleteTarget
    ensures r == p.(dialogOpen := false)
  {
    p.(dialogOpen := false)
  }

  /**
   * Asking to delete a tag and confirming removes exactly the tags with its id, whatever
   * was targeted before; the others keep their order.
   */
  lemma {:induction false} RequestThenConfirmRemovesTag(p: Panel, t: Tag, a: seq<Tag>, b: seq<Tag>)
    requires p.items == a + [t] + b
    requires forall i :: 0 <= i < |a| ==> a[i].id != t.id
    requires forall i :: 0 <= i < |b| ==> b[i].id != t.id
    ensures ConfirmDelete(RequestDelete(p, t), Ok(())).panel.items == a + b
  {
    RemoveSoleOccurrence(a, t, b, TagId);
  }

  /** A tag created and then confirmed for deletion leaves the list as before the creation. */
  lemma CreateThenDeleteRestores(p: Panel, created: Tag)
    requires Filled(p.newTag)
    requires forall i :: 0 <= i < |p.items| ==> p.items[i].id != created.id
    ensures var p1 := Create(p, Ok(created)).panel;
      ConfirmDelete(RequestDelete(p1, created), Ok(())).panel.items == p.items
  {
    RequestThenConfirmRemovesTag(p.(items := p.items + [created], newTag := Form("", DefaultColor), error := None),
                                 created, p.items, []);
    assert p.items + [created] + [] == p.items + [created];
  }
}

=== FILE: taxonomy.dfy ===
/**
 * The admin panels that manage the status and the priority vocabularies. The two
 * components are the same code with the noun swapped, so one module models both,
 * with the noun as a parameter.
 */
module Taxonomy {
  import opened Wrappers
  import opened Text
  import opened Domain
  import opened Lists
  import opened Responses

  /** The noun a panel manages: singular for messages about one item, plural for the list. */
  datatype Noun = Noun(one: string, many: string)

  const Statuses: Noun := Noun("status", "statuses")
  const Priorities: Noun := Noun("priority", "priorities")

  const NameRequired: string := "Name is required"

  /** The message of a non-2xx reply without an `error` field: "Failed to create status". */
  function FailedTo(verb: string, noun: string): string {
    "Failed to " + verb + " " + noun
  }

  /** The message of a request that threw: "Error creating status". */
  function ErrorWhile(gerund: string, noun: string): string {
    "Error " + gerund + " " + noun
  }

  /**
   * The message a failed mutation shows: the server's `error` field when non-empty, else
   * the "Failed to" fallback; a thrown request shows the "Error" message instead.
   */
  function MutationError<T>(resp: Response<T>, verb: string, gerund: string, noun: string): (msg: string)
    requires !resp.Ok?
    ensures resp.HttpErr? ==> msg == ErrorField(resp.fields, "error", FailedTo(verb, noun))
    ensures resp.Failed? ==> msg == ErrorWhile(gerund, noun)
  {
    if resp.HttpErr? then ErrorField(resp.fields, "error", FailedTo(verb, noun))
    else ErrorWhile(gerund, noun)
  }

  /** The panel's state: the listed terms, the banner, the add field and the inline edit. */
  datatype Panel = Panel(
    items: seq<Term>,
    loading: bool,
    error: Option<string>,
    newName: string,
    editing: Option<int>,
    editName: string)

  /** The state on mount: nothing listed, loading, no error, both fields empty. */
  function Initial(): (p: Panel)
    ensures p.items == [] && p.loading && p.error.None? && p.newName == "" && p.editing.None? && p.editName == ""
  {
    Panel([], true, None, "", None, "")
  }

  /** A handler's result: the next state and whether a request went out. */
  datatype Outcome = Outcome(panel: Panel, sent: bool)

  /**
   * The fetch on mount: a successful reply replaces the list; a non-2xx reply or a throw
   * sets the matching message and keeps the list. Loading ends in every case, and the
   * banner is not cleared first.
   */
  function Load(p: Panel, noun: Noun, resp: Response<seq<Term>>): (r: Panel)
    ensures !r.loading
    ensures resp.Ok? ==> r.items == resp.body && r.error == p.error
    ensures resp.HttpErr? ==> r.items == p.items && r.error == Some(FailedTo("fetch", noun.many))
    ensures resp.Failed? ==> r.items == p.items && r.error == Some(ErrorWhile("fetching", noun.many))
    ensures r.newName == p.newName && r.editing == p.editing && r.editName == p.editName
  {
    match resp
    case Ok(terms) => p.(items := terms, loading := false)
    case HttpErr(_) => p.(error := Some(FailedTo("fetch", noun.many)), loading := false)
    case Failed(_) => p.(error := Some(ErrorWhile("fetching", noun.many)), loading := false)
  }

  /**
   * `handleCreate…`: a blank name only sets "Name is required"; otherwise the banner is
   * cleared, the request goes out, a created term is appended and the field emptied, and
   * a failure shows its message with the list and field kept.
   */
  function Create(p: Panel, noun: Noun, resp: Response<Term>): (r: Outcome)
    ensures Blank(p.newName) ==> !r.sent && r.panel == p.(error := Some(NameRequired))
    ensures !Blank(p.newName) ==> r.sent
    ensures !Blank(p.newName) && resp.Ok? ==>
      r.panel == p.(items := p.items + [resp.body], newName := "", error := None)
    ensures !Blank(p.newName) && !resp.Ok? ==>
      r.panel == p.(error := Some(MutationError(resp, "create", "creating", noun.one)))
  {
    TrimEmptyIffBlank(p.newName);
    if Trim(p.newName) == "" then Outcome(p.(error := Some(NameRequired)), false)
    else
      match resp
      case Ok(created) => Outcome(p.(items := p.items + [created], newName := "", error := None), true)
      case _ => Outcome(p.(error := Some(MutationError(resp, "create", "creating", noun.one))), true)
  }

  /** `startEditing`: the term's id is being edited, its name in the field. */
  function StartEditing(p: Panel, t: Term): (r: Panel)
    ensures r.editing == Some(t.id) && r.editName == t.name
    ensures r.items == p.items && r.error == p.error && r.newName == p.newName
    ensures r == p.(editing := Some(t.id), editName := t.name)
  {
    p.(editing := Some(t.id), editName := t.name)
  }

  /** `cancelEditing`: no edit, field emptied. */
  function CancelEditing(p: Panel): (r: Panel)
    ensures r.editing.None? && r.editName == ""
    ensures r.items == p.items && r.error == p.error && r.newName == p.newName
    ensures r == p.(editing := None, editName := "")
  {
    p.(editing := None, editName := "")
  }

  /**
   * `handleUpdate…(id)`: a blank name only sets "Name is required"; otherwise the reply
   * replaces every listed term with that id and the edit closes; a failure shows its
   * message and keeps the edit open.
   */
  function Update(p: Panel, noun: Noun, id: int, resp: Response<Term>): (r: Outcome)
    ensures Blank(p.editName) ==> !r.sent && r.panel == p.(error := Some(NameRequired))
    ensures !Blank(p.editName) ==> r.sent
    ensures !Blank(p.editName) && resp.Ok? ==>
      && |r.panel.items| == |p.items|
      && (forall i :: 0 <= i < |p.items| ==> r.panel.items[i] == if p.items[i].id == id then resp.body else p.items[i])
      && r.panel.editing.None? && r.panel.editName == "" && r.panel.error.None?
      && r.panel.newName == p.newName
    ensures !Blank(p.editName) && resp.Ok? ==>
      r.panel == p.(items := ReplaceById(p.items, TermId, id, resp.body), editing := None, editName := "", error := None)
    ensures !Blank(p.editName) && !resp.Ok? ==>
      r.panel == p.(error := Some(MutationError(resp, "update", "updating", noun.one)))
  {
    TrimEmptyIffBlank(p.editName);
    if Trim(p.editName) == "" then Outcome(p.(error := Some(NameRequired)), false)
    else
      match resp
      case Ok(updated) =>
        Outcome(p.(items := ReplaceById(p.items, TermId, id, updated), editing := None, editName := "", error := None), true)
      case _ => Outcome(p.(error := Some(MutationError(resp, "update", "updating", noun.one))), true)
  }

  /**
   * `handleDelete…(id)`: the browser prompt is the `confirmed` argument; declining does
   * nothing. Otherwise a success drops every term with that id, and a failure shows its
   * message with the list kept.
   */
  function Delete(p: Panel, noun: Noun, id: int, confirmed: bool, resp: Response<()>): (r: Outcome)
    ensures !confirmed ==> r == Outcome(p, false)
    ensures confirmed ==> r.sent
    ensures confirmed && resp.Ok? ==>
      && (forall i :: 0 <= i < |r.panel.items| ==> r.panel.items[i] in p.items && r.panel.items[i].id != id)
      && (forall i :: 0 <= i < |p.items| && p.items[i].id != id ==> p.items[i] in r.panel.items)
      && r.panel.error.None?
    ensures confirmed && resp.Ok? ==> r.panel == p.(items := RemoveById(p.items, TermId, id), error := None)
    ensures confirmed && !resp.Ok? ==>
      r.panel == p.(error := Some(MutationError(resp, "delete", "deleting", noun.one)))
  {
    if !confirmed then Outcome(p, false)
    else if resp.Ok? then Outcome(p.(items := RemoveById(p.items, TermId, id), error := None), true)
    else Outcome(p.(error := Some(MutationError(resp, "delete", "deleting", noun.one))), true)
  }

  /**
   * Deleting a term just created, whose id the list did not hold, gives back the list
   * from before the creation.
   */
  lemma CreateThenDeleteRestores(p: Panel, noun: Noun, created: Term, done: Response<()>)
    requires !Blank(p.newName) && done.Ok?
    requires forall i :: 0 <= i < |p.items| ==> p.items[i].id != created.id
    ensures Delete(Create(p, noun, Ok(created)).panel, noun, created.id, true, done).panel.items == p.items
  {
    RemoveByIdAppend(p.items, [created], TermId, created.id);
    RemoveAbsentId(p.items, TermId, created.id);
    assert RemoveById([created], TermId, created.id) == [];
  }

  /**
   * An update whose reply keeps the id leaves the list's ids as they were, position by
   * position, so no term appears or vanishes.
   */
  lemma UpdateKeepsIds(p: Panel, noun: Noun, id: int, updated: Term)
    requires !Blank(p.editName) && updated.id == id
    ensures var items := Update(p, noun, id, Ok(updated)).panel.items;
      |items| == |p.items| && forall i :: 0 <= i < |items| ==> items[i].id == p.items[i].id
  {
  }

  /** Starting an edit and cancelling it leaves the panel as it was before any edit. */
  lemma CancelUndoesStart(p: Panel, t: Term)
    requires p.editing.None? && p.editName == ""
    ensures CancelEditing(StartEditing(p, t)) == p
  {
  }
}

=== FILE: text.dfy ===
/**
 * String helpers with the semantics of the JavaScript built-ins the client uses:
 * `String.prototype.trim`, `startsWith`, `split` on one character, `Array.prototype.join`
 * and `String(n)` for integers.
 */
module Text {

  /** JavaScript's WhiteSpace and LineTerminator code points, the set `trim` strips. */
  predicate IsWhitespace(c: char) {
    || c == ' ' || c == '\t' || c == '\n' || c == '\U{B}' || c == '\U{C}' || c == '\r'
    || c == '\U{A0}' || c == '\U{1680}' || ('\U{2000}' <= c <= '\U{200A}')
    || c == '\U{2028}' || c == '\U{2029}' || c == '\U{202F}' || c == '\U{205F}'
    || c == '\U{3000}' || c == '\U{FEFF}'
  }

  /** A string whose `trim()` is empty, i.e. a falsy `s.trim()`. */
  predicate Blank(s: string) {
    forall i :: 0 <= i < |s| ==> IsWhitespace(s[i])
  }

  predicate StartsWith(s: string, prefix: string) {
    |prefix| <= |s| && s[..|prefix|] == prefix
  }

  /** Leading whitespace removed: the result is the longest suffix not starting with whitespace. */
  function TrimStart(s: string): (r: string)
    ensures |r| <= |s| && r == s[|s| - |r|..]
    ensures forall i :: 0 <= i < |s| - |r| ==> IsWhitespace(s[i])
    ensures |r| > 0 ==> !IsWhitespace(r[0])
    decreases |s|
  {
    if |s| > 0 && IsWhitespace(s[0]) then TrimStart(s[1..]) else s
  }

  /** Trailing whitespace removed: the result is the longest prefix not ending with whitespace. */
  function TrimEnd(s: string): (r: string)
    ensures |r| <= |s| && r == s[..|r|]
    ensures forall i :: |r| <= i < |s| ==> IsWhitespace(s[i])
    ensures |r| > 0 ==> !IsWhitespace(r[|r| - 1])
    decreases |s|
  {
    if |s| > 0 && IsWhitespace(s[|s| - 1]) then TrimEnd(s[..|s| - 1]) else s
  }

  /** `s.trim()`: whitespace dropped at both ends, so the result neither starts nor ends with it. */
  function Trim(s: string): (r: string)
    ensures |r| <= |s|
    ensures |r| > 0 ==> !IsWhitespace(r[0]) && !IsWhitespace(r[|r| - 1])
  {
    TrimEnd(TrimStart(s))
  }

  /** `s.trim() === ""` exactly when every character of `s` is whitespace. */
  lemma TrimEmptyIffBlank(s: string)
    ensures Trim(s) == "" <==> Blank(s)
  {
    var t := TrimStart(s);
    if Trim(s) == "" {
      assert |t| == 0;
    } else {
      var r := Trim(s);
      assert !IsWhitespace(r[0]);
      assert r[0] == t[0] == s[|s| - |t|];
    }
  }

  /** `parts.join(sep)`. */
  function Join(parts: seq<string>, sep: string): string {
    if |parts| == 0 then ""
    else if |parts| == 1 then parts[0]
    else parts[0] + sep + Join(parts[1..], sep)
  }

  /** Joining one more part adds the separator and that part at the end. */
  lemma {:induction false} JoinSnoc(parts: seq<string>, p: string, sep: string)
    requires |parts| > 0
    ensures Join(parts + [p], sep) == Join(parts, sep) + sep + p
    decreases |parts|
  {
    if |parts| > 1 {
      assert (parts + [p])[1..] == parts[1..] + [p];
      JoinSnoc(parts[1..], p, sep);
    } else {
      assert parts + [p] == [parts[0], p];
      assert [parts[0], p][1..] == [p];
    }
  }

  /** `s.split(sep)` for a one-character separator: always at least one part, none holding `sep`. */
  function Split(s: string, sep: char): (parts: seq<string>)
    ensures |parts| >= 1
    ensures forall i :: 0 <= i < |parts| ==> sep !in parts[i]
    decreases |s|
  {
    if |s| == 0 then [""]
    else
      var rest := Split(s[1..], sep);
      if s[0] == sep then [""] + rest
      else [[s[0]] + rest[0]] + rest[1..]
  }

  lemma JoinConsFirst(c: char, parts: seq<string>, sep: string)
    requires |parts| >= 1
    ensures Join([[c] + parts[0]] + parts[1..], sep) == [c] + Join(parts, sep)
  {
    var q := [[c] + parts[0]] + parts[1..];
    if |parts| > 1 {
      assert q[1..] == parts[1..];
    }
  }

  /** Joining the pieces of a split with the separator gives back the original string. */
  lemma {:induction false} SplitJoin(s: string, sep: char)
    ensures Join(Split(s, sep), [sep]) == s
    decreases |s|
  {
    if |s| > 0 {
      var rest := Split(s[1..], sep);
      SplitJoin(s[1..], sep);
      if s[0] == sep {
        assert ([""] + rest)[1..] == rest;
        assert s == [sep] + s[1..];
      } else {
        JoinConsFirst(s[0], rest, [sep]);
        assert s == [s[0]] + s[1..];
      }
    }
  }

  predicate IsDecimalDigit(c: char) {
    '0' <= c <= '9'
  }

  function DigitChar(d: nat): (c: char)
    requires d < 10
    ensures IsDecimalDigit(c) && c as int - '0' as int == d
  {
    ('0' as int + d) as char
  }

  /** Decimal digits of a natural number, most significant first, without leading zeros. */
  function NatToString(n: nat): (s: string)
    ensures |s| >= 1
    ensures forall i :: 0 <= i < |s| ==> IsDecimalDigit(s[i])
    ensures s[0] == '0' <==> n == 0
    ensures n < 10 <==> |s| == 1
    decreases n
  {
    if n < 10 then [DigitChar(n)] else NatToString(n / 10) + [DigitChar(n % 10)]
  }

  /** `String(n)` for an integer `n`: a minus sign before the digits of `|n|` when negative. */
  function IntToString(n: int): string {
    if n < 0 then "-" + NatToString(-n) else NatToString(n)
  }
}

=== FILE: wrappers.dfy ===
/** Failure-carrying datatypes used throughout the model. */
module Wrappers {

  /** A value that may be absent; stands for JavaScript's `null`/`undefined`. */
  datatype Option<+T> = None | Some(value: T) {
    function GetOr(default: T): T {
      match this
      case Some(v) => v
      case None => default
    }
  }

  /** The outcome of a step that either produces a value or reports an error message. */
  datatype Result<+T, +E> = Success(value: T) | Failure(error: E)
}
